=== FILE: README.md ===
# Pact consumer JUnit 5 extension: the store state machine

This project models `PactConsumerTestExt`, the JUnit 5 extension of Pact JVM that turns `@Pact`
methods of a consumer test class into pacts. The model covers:

- **Provider resolution.** The class and method `@PactTestFor` annotations are merged. When
  `pactMethods` is given, they are expanded into one provider per named `@Pact` method.
- **The pact cache.** The `@Pact` method for a provider is chosen and its signature is checked
  against the provider type. It is invoked with the matching builder, and the pact it returns
  is kept under `pact:<provider>`.
- **The mock-server lifecycle.** Each non-ASYNCH provider gets a server. The server is started
  before the test body, and closed and validated after it.
- **Parameter injection.** This decides which parameter types the extension supports, which
  provider a parameter is for, and what value it receives.
- **Class-level aggregation.** Pacts are merged by `(consumer, provider)` at the highest
  requested spec version. At class teardown they are written out, and the class fails if a
  declared, non-disabled `@Pact` method never ran.

The extension's store is one immutable record, `PactTypes.Store`. Each hook is a pure function
from a store to a `Step`: the store as the hook leaves it (including any changes made before an
exception) and either the hook's value or the exception it raises. Side effects are appended to
an event log: server start, readiness, close, validation, pact writes and scope closing.

The code the extension calls but does not define is held in a `Collaborators` record of
uninterpreted functions: `ProviderInfo.fromAnnotation` and `merge`, `parseExpression`, the
signature checks, method invocation, `mockServerConfig`, server start-up, `mergeInteractions`,
the typed pact views and `pact.write`. Four of them may fail:
- invoking a `@Pact` method (it throws, or what it returns is not a pact), raised as `InvocationFailed`;
- a typed view that `unwrap()` rejects, raised as `ConversionFailed`;
- a mock server that does not come up in `start`/`waitForServer`, raised as `StartupFailed`;
- a pact write, raised as `WriteFailed`.

The other collaborators are total. Properties that depend on a collaborator's behaviour take
that behaviour as a hypothesis (`Aggregation.AppendsInteractions`).

Modules, in dependency order:

- `Wrappers`: `Option` and `Result`.
- `PactTypes`: the data.
- `Selection`: `pactMethodAnnotation`.
- `ProviderResolution`: `lookupProviderInfo` and `providerNameFromPactMethod`.
- `PactCache`: `lookupPact`.
- `Aggregation`: `storePactForWrite`.
- `MockServerLifecycle`: `setupMockServer`, `beforeTestExecution` and `afterTestExecution`.
- `Teardown`: `lookupPactDirectory` and `afterAll`.
- `ParameterDispatch`: `supportsParameter`, `resolveParameter` and `resolveParameterForProvider`.
- `TestRun`: one test and one class driven through the hooks in JUnit's order, with the test
  store scope closed after each test.

Behaviours of the code worth noting:

- **The builder's provider name.** When `parseExpression` of `@Pact.provider` yields nothing
  or an empty string, the name handed to the builder is the searched name (the provider's
  name, or `"default"` when that is empty). It is not the raw annotation text.
- **Pact writing in `afterAll`.** The writes stop at the first one that throws. Later entries
  are not attempted.
- **The coverage check.** It only runs when fewer methods were executed than declared. The
  model proves that this guard never hides an uncovered method, as long as only declared
  methods are ever recorded.
- **`providerNameFromPactMethod`.** It uses the raw `@Pact.provider` with no expression
  substitution, and raises a null-pointer failure when no method has the name.

## Model

Every `source` cell is in `consumer/junit5/src/main/kotlin/au/com/dius/pact/consumer/junit5/PactConsumerTestExt.kt`.

| member | source | states |
|---|---|---|
| PactTypes.MaxVersion | consumer/junit5/src/main/kotlin/au/com/dius/pact/consumer/junit5/PactConsumerTestExt.kt:354 | the version kept is one of the two given and is at least as high as both |
| Selection.FirstMatch | consumer/junit5/src/main/kotlin/au/com/dius/pact/consumer/junit5/PactConsumerTestExt.kt:303-316 | `firstOrNull`: the index found satisfies the predicate and no earlier method does; nothing is found exactly when no method satisfies it |
| Selection.SelectPactMethod | consumer/junit5/src/main/kotlin/au/com/dius/pact/consumer/junit5/PactConsumerTestExt.kt:297-319 | the chosen method is the first one eligible under the name/provider rule; there is no choice exactly when no method is eligible |
| Selection.SelectByName | consumer/junit5/src/main/kotlin/au/com/dius/pact/consumer/junit5/PactConsumerTestExt.kt:301-304 | a non-empty method name picks the first method with exactly that name, whatever provider is asked for; if no method has that name, nothing is picked |
| Selection.SelectByProvider | consumer/junit5/src/main/kotlin/au/com/dius/pact/consumer/junit5/PactConsumerTestExt.kt:309-316 | with no method name, the pick is the first method whose substituted provider is empty or matches; there is no pick exactly when every method names another provider |
| ProviderResolution.ProviderNameFromPactMethod | consumer/junit5/src/main/kotlin/au/com/dius/pact/consumer/junit5/PactConsumerTestExt.kt:229-232 | a provider name comes back exactly when a method is selected by that name; it is the raw `provider` attribute of the first method so selected; otherwise the failure names the method |
| ProviderResolution.Expand | consumer/junit5/src/main/kotlin/au/com/dius/pact/consumer/junit5/PactConsumerTestExt.kt:183-188 | expansion succeeds exactly when every listed name finds a method; it then gives one target per name, in order, with the base configuration renamed to that method's provider |
| ProviderResolution.ExpandFailure | consumer/junit5/src/main/kotlin/au/com/dius/pact/consumer/junit5/PactConsumerTestExt.kt:183-188 | a failed expansion raises the not-found error for the first listed name that matches no method; every earlier name resolves |
| ProviderResolution.Resolve | consumer/junit5/src/main/kotlin/au/com/dius/pact/consumer/junit5/PactConsumerTestExt.kt:178-220 | the four-way matrix of class and method annotations; its contract states only that a list is never empty and that the only failure is an unknown listed method name; each cell is stated by the lemmas below |
| ProviderResolution.Single | consumer/junit5/src/main/kotlin/au/com/dius/pact/consumer/junit5/PactConsumerTestExt.kt:198-215 | one annotation alone gives a non-empty list, and it can fail only when it lists `pactMethods` |
| ProviderResolution.LookupProviderInfo | consumer/junit5/src/main/kotlin/au/com/dius/pact/consumer/junit5/PactConsumerTestExt.kt:159-227 | a cached list is returned unchanged; uncached, the result is what the annotations resolve to (success, list and failure alike), and that list is cached with nothing else changed; a failure changes nothing |
| ProviderResolution.NoAnnotationsGiveDefault | consumer/junit5/src/main/kotlin/au/com/dius/pact/consumer/junit5/PactConsumerTestExt.kt:216-219 | with no `@PactTestFor` on either the class or the method, the result is exactly one default provider with an empty method name |
| ProviderResolution.LookupProviderInfoCached | consumer/junit5/src/main/kotlin/au/com/dius/pact/consumer/junit5/PactConsumerTestExt.kt:161-162 | after a successful lookup, a second lookup gives the same list and the same store |
| ProviderResolution.PactMethodsExpansion | consumer/junit5/src/main/kotlin/au/com/dius/pact/consumer/junit5/PactConsumerTestExt.kt:178-215 | a non-empty `pactMethods` list (the method's beats the class's) gives one target per name, in order; each carries its name, the shared configuration, and the raw provider of the first method with that name |
| ProviderResolution.BothWithoutPactMethods | consumer/junit5/src/main/kotlin/au/com/dius/pact/consumer/junit5/PactConsumerTestExt.kt:179-196 | with both annotations and no `pactMethods`: one target with the method-over-class merge, and the method's `pactMethod` or else the class's |
| ProviderResolution.SingleWithoutPactMethods | consumer/junit5/src/main/kotlin/au/com/dius/pact/consumer/junit5/PactConsumerTestExt.kt:204-215 | a class-only or method-only annotation without `pactMethods` gives exactly one target, with that annotation's configuration and its `pactMethod` |
| PactCache.SearchName | consumer/junit5/src/main/kotlin/au/com/dius/pact/consumer/junit5/PactConsumerTestExt.kt:241 | the searched provider name is never empty, and it is the provider's own name whenever that is non-empty |
| PactCache.BuilderFor | consumer/junit5/src/main/kotlin/au/com/dius/pact/consumer/junit5/PactConsumerTestExt.kt:257-279 | a message builder is used exactly for ASYNCH, at `pactVersion ?: V3`; otherwise a request/response builder with the unset-or-given version; the consumer is substituted or raw; the provider is the substituted one, or the searched name when substitution yields nothing or an empty string |
| PactCache.TagInteractions | consumer/junit5/src/main/kotlin/au/com/dius/pact/consumer/junit5/PactConsumerTestExt.kt:282-285 | every interaction gets the test label and keeps its description; the count is unchanged |
| PactCache.LookupPact | consumer/junit5/src/main/kotlin/au/com/dius/pact/consumer/junit5/PactConsumerTestExt.kt:234-295 | a cached pact is returned with nothing changed. Otherwise success means the first eligible, conforming method ran, and the pact it built is stored under the provider's name and returned; for V4 its interactions are labelled with the test. The method is recorded as executed. No eligible method raises the missing-method error, and every failure leaves the store unchanged |
| PactCache.LookupPactIdempotent | consumer/junit5/src/main/kotlin/au/com/dius/pact/consumer/junit5/PactConsumerTestExt.kt:288-294 | once a lookup succeeds, looking the provider up again (under any method name) returns the same pact, invokes nothing and changes nothing |
| PactCache.SignatureCheckByType | consumer/junit5/src/main/kotlin/au/com/dius/pact/consumer/junit5/PactConsumerTestExt.kt:244-254 | SYNCH (or unset) fails exactly when the request/response signature check fails, ASYNCH exactly when the message check fails, and UNSPECIFIED never fails; the error names the method and the missing form; without V4, a method that passes the check and builds a pact always yields it |
| PactCache.EmptyProviderSearchesDefault | consumer/junit5/src/main/kotlin/au/com/dius/pact/consumer/junit5/PactConsumerTestExt.kt:241-242 | for an empty provider name, the method that runs has an empty or `"default"` substituted provider |
| PactCache.V4PactsTagged | consumer/junit5/src/main/kotlin/au/com/dius/pact/consumer/junit5/PactConsumerTestExt.kt:281-286 | a freshly built V4 pact keeps the consumer and provider its method gave it and has the built interactions, in order, each labelled with the test class and test name |
| PactCache.LookupPactLocal | consumer/junit5/src/main/kotlin/au/com/dius/pact/consumer/junit5/PactConsumerTestExt.kt:234-291 | a lookup's outcome depends on the store only through the pact cached for that provider |
| PactCache.V4ConversionFailure | consumer/junit5/src/main/kotlin/au/com/dius/pact/consumer/junit5/PactConsumerTestExt.kt:281-289 | when the chosen method builds a pact, a V4 lookup fails with the conversion error exactly when that pact has no V4 view, and then records nothing as executed; it succeeds exactly when the pact has a V4 view |
| PactCache.InvocationFailure | consumer/junit5/src/main/kotlin/au/com/dius/pact/consumer/junit5/PactConsumerTestExt.kt:271-277 | a chosen, conforming method that throws fails the lookup with an error naming it, storing and recording nothing |
| Aggregation.Contribute | consumer/junit5/src/main/kotlin/au/com/dius/pact/consumer/junit5/PactConsumerTestExt.kt:349-355 | a new key stores the contribution; an existing key keeps its pact with the new interactions merged in, at the higher of the two versions; every other key is untouched |
| Aggregation.ContributeAll | consumer/junit5/src/main/kotlin/au/com/dius/pact/consumer/junit5/PactConsumerTestExt.kt:349-355 | successive contributions; no contract of its own, its properties are the three lemmas that follow |
| Aggregation.ContributeAllKeeps | consumer/junit5/src/main/kotlin/au/com/dius/pact/consumer/junit5/PactConsumerTestExt.kt:349-355 | over any sequence of contributions no key is lost, no stored version decreases, and the keys become the old keys plus the contributed ones |
| Aggregation.StorePactForWrite | consumer/junit5/src/main/kotlin/au/com/dius/pact/consumer/junit5/PactConsumerTestExt.kt:343-356 | succeeds exactly when the provider's pact is stored, and contributes it at `pactVersion ?: V3`; a failure changes nothing; versions never decrease |
| Aggregation.ContributeToExisting | consumer/junit5/src/main/kotlin/au/com/dius/pact/consumer/junit5/PactConsumerTestExt.kt:352-354 | with appending merges, contributing to an existing key appends the new interactions to the stored pact |
| Aggregation.ContributeAllToExisting | consumer/junit5/src/main/kotlin/au/com/dius/pact/consumer/junit5/PactConsumerTestExt.kt:349-355 | contributions to an existing key append every contributed interaction, in contribution order |
| Aggregation.ContributeAllVersion | consumer/junit5/src/main/kotlin/au/com/dius/pact/consumer/junit5/PactConsumerTestExt.kt:354 | contributions to an existing key leave the highest of the stored and contributed versions, and that version is one of them |
| Aggregation.AggregateOneIdentity | consumer/junit5/src/main/kotlin/au/com/dius/pact/consumer/junit5/PactConsumerTestExt.kt:343-356 | contributions for a single identity give one entry holding all their interactions in order, at the highest contributed version |
| MockServerLifecycle.SetupMockServer | consumer/junit5/src/main/kotlin/au/com/dius/pact/consumer/junit5/PactConsumerTestExt.kt:144-157 | a stored server is returned with nothing changed; otherwise the configuration is stored and the set-up succeeds exactly when `lookupPact` does, the new server serving the pact it returns with that configuration and stored over the store it leaves, and a lookup failure is raised as it is |
| MockServerLifecycle.StartOne | consumer/junit5/src/main/kotlin/au/com/dius/pact/consumer/junit5/PactConsumerTestExt.kt:136-140 | an ASYNCH provider changes nothing; any other provider starts exactly when its server is set up and comes up, and then has it stored, logged as started and then ready; a server that does not come up raises the start-up failure after logging only the start |
| MockServerLifecycle.SetupMockServerLocal | consumer/junit5/src/main/kotlin/au/com/dius/pact/consumer/junit5/PactConsumerTestExt.kt:144-157 | a set-up's outcome depends on the store only through the server and pact stored for that provider |
| MockServerLifecycle.SetsUpKept | consumer/junit5/src/main/kotlin/au/com/dius/pact/consumer/junit5/PactConsumerTestExt.kt:133-141 | starting one provider keeps every other provider's server able to be set up and come up; a provider sharing the name reuses the started server |
| MockServerLifecycle.StartServersSucceed | consumer/junit5/src/main/kotlin/au/com/dius/pact/consumer/junit5/PactConsumerTestExt.kt:133-141 | the start loop succeeds when every non-ASYNCH provider's server would be set up and come up from the starting store |
| MockServerLifecycle.StartServers | consumer/junit5/src/main/kotlin/au/com/dius/pact/consumer/junit5/PactConsumerTestExt.kt:133-141 | the loop over providers, stopping at the first exception; no contract of its own, it is stated by the two lemmas that follow |
| MockServerLifecycle.StartServersFrame | consumer/junit5/src/main/kotlin/au/com/dius/pact/consumer/junit5/PactConsumerTestExt.kt:133-141 | starting servers only adds servers for non-ASYNCH providers and records only declared methods; when it succeeds, every non-ASYNCH provider has a server |
| MockServerLifecycle.StartServersLog | consumer/junit5/src/main/kotlin/au/com/dius/pact/consumer/junit5/PactConsumerTestExt.kt:133-141 | a successful start loop logs a start and then a ready event for each non-ASYNCH provider, in provider order, and nothing else |
| MockServerLifecycle.BeforeTestExecution | consumer/junit5/src/main/kotlin/au/com/dius/pact/consumer/junit5/PactConsumerTestExt.kt:132-142 | a resolution failure is raised as it is; on success the cached providers are exactly the resolved list, each non-ASYNCH provider has a running server, and the log holds exactly the start events; the aggregation map is untouched |
| MockServerLifecycle.BeforeTestExecutionStarts | consumer/junit5/src/main/kotlin/au/com/dius/pact/consumer/junit5/PactConsumerTestExt.kt:132-142 | the hook succeeds when the providers resolve and every non-ASYNCH provider's server would be set up and come up |
| MockServerLifecycle.ForwardOne | consumer/junit5/src/main/kotlin/au/com/dius/pact/consumer/junit5/PactConsumerTestExt.kt:325-338 | an ASYNCH pact is forwarded outright; another is forwarded only after close and a successful validation; a mismatch raises the validation failure with its details and forwards nothing |
| MockServerLifecycle.ForwardOneReady | consumer/junit5/src/main/kotlin/au/com/dius/pact/consumer/junit5/PactConsumerTestExt.kt:325-338 | forwarding one provider succeeds exactly when its pact is stored and, for a non-ASYNCH provider, its server is stored and validates; a missing server fails reading "mockServer:<name>" |
| MockServerLifecycle.ForwardAll | consumer/junit5/src/main/kotlin/au/com/dius/pact/consumer/junit5/PactConsumerTestExt.kt:325-339 | success means every provider had a stored pact and every server validated; a validation failure names a non-ASYNCH provider whose server reported that mismatch (the failure path in full is `MockServerLifecycle.ForwardAllStopsAt`) |
| MockServerLifecycle.ForwardAllReady | consumer/junit5/src/main/kotlin/au/com/dius/pact/consumer/junit5/PactConsumerTestExt.kt:325-339 | the pass succeeds exactly when every provider is ready to forward, so ASYNCH pacts are always forwarded once stored and other pacts once their server validates |
| MockServerLifecycle.ForwardAllAggregates | consumer/junit5/src/main/kotlin/au/com/dius/pact/consumer/junit5/PactConsumerTestExt.kt:325-339 | a successful pass contributes each provider's pact, at its version, in provider order |
| MockServerLifecycle.ForwardAllLog | consumer/junit5/src/main/kotlin/au/com/dius/pact/consumer/junit5/PactConsumerTestExt.kt:329-336 | a successful pass logs close and then validation for each non-ASYNCH provider, in order, and nothing else |
| MockServerLifecycle.ForwardOneFailure | consumer/junit5/src/main/kotlin/au/com/dius/pact/consumer/junit5/PactConsumerTestExt.kt:325-338 | forwarding a provider that is not ready raises, contributes nothing, and logs only the close and validation that preceded a failed validation |
| MockServerLifecycle.ForwardAllStopsAt | consumer/junit5/src/main/kotlin/au/com/dius/pact/consumer/junit5/PactConsumerTestExt.kt:325-339 | at the first provider not ready, the pass raises that provider's failure, having contributed exactly the earlier providers' pacts in order and logged their close/validate events followed by the failing provider's own; later providers are not touched |
| MockServerLifecycle.AfterTestExecutionStopsAt | consumer/junit5/src/main/kotlin/au/com/dius/pact/consumer/junit5/PactConsumerTestExt.kt:321-341 | after a test that did not raise, the hook raises the first unready provider's failure with the earlier providers' pacts aggregated and their events logged |
| MockServerLifecycle.AfterTestExecution | consumer/junit5/src/main/kotlin/au/com/dius/pact/consumer/junit5/PactConsumerTestExt.kt:321-341 | after a test that raised, nothing happens at all; otherwise it succeeds exactly when the providers are stored and every one is ready to forward, fails reading "providers" when they are not stored, and on success aggregates every provider's pact in order and logs the close/validate events; stored versions never decrease (the failure path is `MockServerLifecycle.AfterTestExecutionStopsAt`) |
| Teardown.LookupPactDirectory | consumer/junit5/src/main/kotlin/au/com/dius/pact/consumer/junit5/PactConsumerTestExt.kt:358-367 | the directory is one of `@PactFolder`, `@PactDirectory` or the build tool's default |
| Teardown.DirectoryPriority | consumer/junit5/src/main/kotlin/au/com/dius/pact/consumer/junit5/PactConsumerTestExt.kt:361-366 | `@PactFolder` beats `@PactDirectory`, which beats the default |
| Teardown.WriteAll | consumer/junit5/src/main/kotlin/au/com/dius/pact/consumer/junit5/PactConsumerTestExt.kt:377-384 | writing succeeds exactly when every visited entry's write succeeds; only the log changes |
| Teardown.WriteAllLog | consumer/junit5/src/main/kotlin/au/com/dius/pact/consumer/junit5/PactConsumerTestExt.kt:377-384 | successful writing logs one write per entry, in visiting order, to the directory at the aggregated version |
| Teardown.WriteAllFailure | consumer/junit5/src/main/kotlin/au/com/dius/pact/consumer/junit5/PactConsumerTestExt.kt:377-384 | a write failure names the first entry, in visiting order, whose write failed; all earlier writes succeeded |
| Teardown.WriteAllStopsAtFailure | consumer/junit5/src/main/kotlin/au/com/dius/pact/consumer/junit5/PactConsumerTestExt.kt:377-384 | when entry `j` is the first whose write fails, the hook fails naming it and logs the writes of the earlier entries only: no later entry is attempted |
| Teardown.Uncovered | consumer/junit5/src/main/kotlin/au/com/dius/pact/consumer/junit5/PactConsumerTestExt.kt:390-391 | the listed methods are exactly the declared ones that never ran and are not disabled, in declaration order (a subsequence of the declared methods) |
| Teardown.JoinNames | consumer/junit5/src/main/kotlin/au/com/dius/pact/consumer/junit5/PactConsumerTestExt.kt:392 | the joined listing is empty exactly when there is nothing to list; otherwise it begins with the first method's qualified name and ends with the last one's |
| Teardown.JoinNamesAppend | consumer/junit5/src/main/kotlin/au/com/dius/pact/consumer/junit5/PactConsumerTestExt.kt:392 | a single method lists its qualified name; appending a method to a non-empty listing adds `", "` and its qualified name, so every name is listed, in order, with that separator |
| Teardown.CoverageCheck | consumer/junit5/src/main/kotlin/au/com/dius/pact/consumer/junit5/PactConsumerTestExt.kt:386-398 | the count-guarded check; no contract of its own, it is stated by the lemma that follows |
| Teardown.CoverageFailsExactlyWhenUncovered | consumer/junit5/src/main/kotlin/au/com/dius/pact/consumer/junit5/PactConsumerTestExt.kt:386-398 | when only declared methods ran, the check fails exactly when some non-disabled declared method never ran, despite the count guard; the message lists those methods in order |
| Teardown.AfterAll | consumer/junit5/src/main/kotlin/au/com/dius/pact/consumer/junit5/PactConsumerTestExt.kt:369-400 | a class that raised changes nothing; otherwise, when all writes succeed, every pact is logged as written and the result is exactly the coverage check: success when every declared, non-disabled method ran, else a failure listing the ones that did not; if any write fails, the hook fails with a write failure naming a stored entry |
| ParameterDispatch.FirstAccepted | consumer/junit5/src/main/kotlin/au/com/dius/pact/consumer/junit5/PactConsumerTestExt.kt:110-123 | the first branch of a type `when` that the parameter accepts; none exactly when it accepts no branch |
| ParameterDispatch.SupportedKinds | consumer/junit5/src/main/kotlin/au/com/dius/pact/consumer/junit5/PactConsumerTestExt.kt:64-78 | each ordered `when` finds a branch exactly when the parameter accepts one of the types it lists |
| ParameterDispatch.SupportsParameter | consumer/junit5/src/main/kotlin/au/com/dius/pact/consumer/junit5/PactConsumerTestExt.kt:61-79 | with any ASYNCH provider, supported exactly for a list, V4 or message pact; otherwise, with any provider, exactly for a mock server, request/response or V4 pact |
| ParameterDispatch.ResolveParameterForProvider | consumer/junit5/src/main/kotlin/au/com/dius/pact/consumer/junit5/PactConsumerTestExt.kt:104-124 | the pact is looked up first and a failure passes through unchanged; a value is delivered only as the first kind the provider type's `when` accepts; no log entry and no aggregation |
| ParameterDispatch.InjectedValue | consumer/junit5/src/main/kotlin/au/com/dius/pact/consumer/junit5/PactConsumerTestExt.kt:109-123 | by chosen kind: the pact's interactions, the stored or a new mock server, a typed view or its conversion failure, or the injection error |
| ParameterDispatch.View | consumer/junit5/src/main/kotlin/au/com/dius/pact/consumer/junit5/PactConsumerTestExt.kt:119-120 | `unwrap` succeeds exactly when the view exists and then delivers it; otherwise it raises the conversion error |
| ParameterDispatch.FindProvider | consumer/junit5/src/main/kotlin/au/com/dius/pact/consumer/junit5/PactConsumerTestExt.kt:88 | `find`: the first provider with the name; none exactly when no provider has it |
| ParameterDispatch.ResolveNamed | consumer/junit5/src/main/kotlin/au/com/dius/pact/consumer/junit5/PactConsumerTestExt.kt:86-95 | a name that no provider has raises the not-found error and changes nothing |
| ParameterDispatch.ResolveNamedFirst | consumer/junit5/src/main/kotlin/au/com/dius/pact/consumer/junit5/PactConsumerTestExt.kt:87-90 | a name that some provider has resolves for the first provider with that name |
| ParameterDispatch.ResolveAmong | consumer/junit5/src/main/kotlin/au/com/dius/pact/consumer/junit5/PactConsumerTestExt.kt:84-101 | a single provider is used even without `@ForProvider`; several need `@ForProvider`, and without it the parameter is ambiguous |
| ParameterDispatch.ResolveParameter | consumer/junit5/src/main/kotlin/au/com/dius/pact/consumer/junit5/PactConsumerTestExt.kt:81-102 | the providers are resolved and cached first, and a failure to resolve them passes through; only pacts, servers and the executed set change |
| ParameterDispatch.SingleProviderSupport | consumer/junit5/src/main/kotlin/au/com/dius/pact/consumer/junit5/PactConsumerTestExt.kt:61-78 | with one provider, the parameter is supported exactly when that provider's `when` has a kind the parameter accepts |
| ParameterDispatch.SingleProviderSupportAgrees | consumer/junit5/src/main/kotlin/au/com/dius/pact/consumer/junit5/PactConsumerTestExt.kt:61-124 | with one provider whose pact is found, resolution raises the injection error exactly when `supportsParameter` answers false |
| ParameterDispatch.MixedProvidersRejectServerParameter | consumer/junit5/src/main/kotlin/au/com/dius/pact/consumer/junit5/PactConsumerTestExt.kt:64-90 | with an ASYNCH provider among several, a mock-server parameter that names a non-ASYNCH provider is unsupported, though resolving it would deliver a server |
| ParameterDispatch.InjectedServerIsStarted | consumer/junit5/src/main/kotlin/au/com/dius/pact/consumer/junit5/PactConsumerTestExt.kt:136-153 | after `beforeTestExecution`, a mock-server parameter receives the server started for its provider, and nothing changes |
| TestRun.CloseTestScope | consumer/junit5/src/main/kotlin/au/com/dius/pact/consumer/junit5/PactConsumerTestExt.kt:44-48 | closing the test scope stops exactly the servers it holds and empties it; the class-level executed set and aggregation are kept |
| TestRun.OpenTestScope | consumer/junit5/src/main/kotlin/au/com/dius/pact/consumer/junit5/PactConsumerTestExt.kt:160-162 | a test starts with an empty store scope of its own, while the class-level executed set, aggregation and log carry over |
| TestRun.ResolveAll | consumer/junit5/src/main/kotlin/au/com/dius/pact/consumer/junit5/PactConsumerTestExt.kt:61-102 | resolving a test's parameters delivers at most one value per parameter; only pacts, servers and the executed set change |
| TestRun.RunTest | consumer/junit5/src/main/kotlin/au/com/dius/pact/consumer/junit5/PactConsumerTestExt.kt:321-341 | a test leaves no providers and no servers behind; it records only declared methods and never lowers an aggregated version; a raising body forwards nothing |
| TestRun.RunTests | consumer/junit5/src/main/kotlin/au/com/dius/pact/consumer/junit5/PactConsumerTestExt.kt:126-130 | the tests of a class in order, each from the store the last one left; no contract of its own, it is stated by the lemma that follows |
| TestRun.RunTestsKeepClassState | consumer/junit5/src/main/kotlin/au/com/dius/pact/consumer/junit5/PactConsumerTestExt.kt:288-289 | over any sequence of tests the executed set only grows, and only by declared methods; aggregated versions never decrease |
| TestRun.RunClass | consumer/junit5/src/main/kotlin/au/com/dius/pact/consumer/junit5/PactConsumerTestExt.kt:126-130 | starting from the store `beforeAll` creates, only the class's declared methods are ever recorded as executed |
| TestRun.ClassFailsExactlyWhenUncovered | consumer/junit5/src/main/kotlin/au/com/dius/pact/consumer/junit5/PactConsumerTestExt.kt:386-398 | when every pact is written, a class fails exactly when a declared, non-disabled `@Pact` method never ran in any of its tests |
| TestRun.StartServersAllAsynch | consumer/junit5/src/main/kotlin/au/com/dius/pact/consumer/junit5/PactConsumerTestExt.kt:136 | providers that are all ASYNCH get no server, and starting them changes nothing |
| TestRun.AsynchPactNeedsParameter | consumer/junit5/src/main/kotlin/au/com/dius/pact/consumer/junit5/PactConsumerTestExt.kt:326-346 | an all-ASYNCH test that takes no parameter builds no pact, so after its body passes it raises the failed read of its first provider's pact |

## Left out

- `JUnit5MockServerSupport`: apart from `close`, its methods (`start`, `stop`, `waitForServer`, URL, port, `runAndWritePact`, `validateMockServerState`) only delegate. Start-up is the `comesUp` collaborator. Validation is a per-provider `Ok | Mismatch` verdict that the test supplies. Closing the test scope is a `ScopeClosed` event listing the servers it stops.
- Reflection is replaced by given data:
  - `findAnnotatedMethods` is the class's `pactMethods` sequence, in top-down order;
  - `isAssignableFrom` is the parameter's set of accepted kinds;
  - `invokeMethod` and the signature checks are uninterpreted collaborators.
- `parseExpression`, `ProviderInfo.fromAnnotation`, `ProviderInfo.merge`, `mockServerConfig`, `mergeInteractions`, `asXxxPact()`, `invokeMethod` and `pact.write` are not defined by this code and are kept abstract. Their results are given. Four of their failures are modelled: a failing `invokeMethod` (or a result that is not a `BasePact`), an `asXxxPact()` that `unwrap()` rejects (including `asV4Pact()` in `lookupPact`), a mock server that does not come up in `start`/`waitForServer`, and a failing `write`. The others are not.
- A `@Pact` method is identified by its name, declaring class and parameter types, as a Java `Method` is. Other parts of its signature, such as the return type, are not part of its identity.
- The numeric order of `PactSpecVersion` is not defined in this code. It is modelled as the declaration order of the enum.
- `Thread.sleep(100)`, logging, and the debug text of exceptions. Errors carry the names and indices in their messages, not the full text.
- The `testname` comment of V4 interactions is the label `class.displayName`, not its JSON encoding. The model tags the interactions of the pact it stores, as though `asV4Pact()` returned the same object, and does not model a view that is a separate copy.
- Concurrency: the `ConcurrentHashMap` store is modelled sequentially, and the check-then-put of `lookupPact` is not claimed to be free of races.
- The order in which `afterAll` visits `pactsToWrite` belongs to the map. It is a parameter that must list every key once.
- JUnit's own behaviour is assumed, not modelled:
  - the callback order within `TestRun.RunTest`;
  - another resolver taking an unsupported parameter (`TestRun.ResolveAll` skips it);
  - whether the class raised, which is an input to `afterAll`.
- MockServerLifecycle.StartServersSucceed: start-up success is a function of the server alone (`comesUp`). When two resolved providers share a name, the second reuses the first's server and calls `start()` on it again; the model makes that second start succeed exactly when the first did, whereas the real mock server may refuse a second start. `MockServerLifecycle.BeforeTestExecution` and `MockServerLifecycle.BeforeTestExecutionStarts` rest on the same simplification.
- TestRun.ResolveAll: its contract bounds the number of values and frames the store. The value delivered for each parameter is stated one call at a time by `ParameterDispatch.ResolveParameter` and its lemmas.
- TestRun.RunTest: its contract states the class-level state a test leaves behind, not its full outcome. The outcome of each hook it calls is stated by that hook's own contract.
- ParameterDispatch.ResolveNamed: its contract covers the not-found case only. The found case is `ParameterDispatch.ResolveNamedFirst`.

=== FILE: aggregation.dfy ===
/** Collecting pacts for writing at class teardown (`storePactForWrite`): pacts sharing a
    `(consumer, provider)` identity are merged into one entry whose spec version is the highest
    requested. */
module Aggregation {
  import opened Wrappers
  import opened PactTypes

  /** The aggregation key of a pact. */
  function KeyOf(p: Pact): PactKey {
    PactKey(p.consumer, p.provider)
  }

  /** `pactsToWrite.merge(key, (pact, version)) { (current, currentVersion), _ -> ... }`: a new
      key stores the pact and version; an existing key keeps its pact, with the new interactions
      merged into it, and the larger of the two versions. Every other entry is untouched. */
  function Contribute(env: Collaborators, agg: map<PactKey, Aggregate>, c: Aggregate)
    : (r: map<PactKey, Aggregate>)
    ensures r.Keys == agg.Keys + {KeyOf(c.pact)}
    ensures forall k :: k in agg && k != KeyOf(c.pact) ==> r[k] == agg[k]
    ensures KeyOf(c.pact) !in agg ==> r[KeyOf(c.pact)] == c
    ensures KeyOf(c.pact) in agg ==>
              && r[KeyOf(c.pact)].pact
                   == env.mergeInteractions(agg[KeyOf(c.pact)].pact, c.pact.interactions)
              && r[KeyOf(c.pact)].version.Ordinal()
                   >= agg[KeyOf(c.pact)].version.Ordinal()
              && r[KeyOf(c.pact)].version.Ordinal() >= c.version.Ordinal()
              && r[KeyOf(c.pact)].version in {agg[KeyOf(c.pact)].version, c.version}
  {
    var key := KeyOf(c.pact);
    if key in agg then
      var current := agg[key];
      agg[key := Aggregate(env.mergeInteractions(current.pact, c.pact.interactions),
                           MaxVersion(c.version, current.version))]
    else agg[key := c]
  }

  /** No key is lost and no stored version decreases from `before` to `after`. */
  ghost predicate VersionsKept(before: map<PactKey, Aggregate>, after: map<PactKey, Aggregate>) {
    forall k :: k in before ==> k in after && after[k].version.Ordinal() >= before[k].version.Ordinal()
  }

  lemma VersionsKeptTransitive(a: map<PactKey, Aggregate>, b: map<PactKey, Aggregate>,
                               c: map<PactKey, Aggregate>)
    requires VersionsKept(a, b) && VersionsKept(b, c)
    ensures VersionsKept(a, c)
  {
  }

  /** The aggregation keys of a list of contributions. */
  function KeysOf(cs: seq<Aggregate>): (r: set<PactKey>)
    ensures forall i :: 0 <= i < |cs| ==> KeyOf(cs[i].pact) in r
    ensures forall k :: k in r ==> exists i :: 0 <= i < |cs| && KeyOf(cs[i].pact) == k
    decreases |cs|
  {
    if |cs| == 0 then {}
    else
      var rest := KeysOf(cs[1..]);
      assert forall i :: 1 <= i < |cs| ==> cs[i] == cs[1..][i - 1];
      {KeyOf(cs[0].pact)} + rest
  }

  /** Contributions applied in order, as successive tests forward their pacts. */
  function ContributeAll(env: Collaborators, agg: map<PactKey, Aggregate>, cs: seq<Aggregate>)
    : map<PactKey, Aggregate>
    decreases |cs|
  {
    if |cs| == 0 then agg else ContributeAll(env, Contribute(env, agg, cs[0]), cs[1..])
  }

  /** Applying contributions loses no key and lowers no version, and the keys afterwards are
      the existing ones and the contributed ones. */
  lemma {:induction false} ContributeAllKeeps(env: Collaborators, agg: map<PactKey, Aggregate>,
                                             cs: seq<Aggregate>)
    ensures VersionsKept(agg, ContributeAll(env, agg, cs))
    ensures ContributeAll(env, agg, cs).Keys == agg.Keys + KeysOf(cs)
    decreases |cs|
  {
    if |cs| > 0 {
      var next := Contribute(env, agg, cs[0]);
      ContributeAllKeeps(env, next, cs[1..]);
      VersionsKeptTransitive(agg, next, ContributeAll(env, next, cs[1..]));
      assert KeysOf(cs) == {KeyOf(cs[0].pact)} + KeysOf(cs[1..]);
    }
  }

  /** `storePactForWrite`: contributes the pact stored for the provider, at `pactVersion ?: V3`.
      A provider with no stored pact is the failed cast of a missing store value. */
  function StorePactForWrite(env: Collaborators, s: Store, info: ProviderInfo): (st: Step<()>)
    ensures st.result.Ok? <==> info.providerName in s.pacts
    ensures st.result.Err? ==> st.store == s
    ensures st.result.Ok? ==>
              && KeyOf(s.pacts[info.providerName]) in st.store.pactsToWrite
              && st.store == s.(pactsToWrite := Contribute(env, s.pactsToWrite,
                                  Aggregate(s.pacts[info.providerName], EffectiveVersion(info))))
    ensures VersionsKept(s.pactsToWrite, st.store.pactsToWrite)
  {
    if info.providerName !in s.pacts then Step(s, Err(MissingStoreEntry("pact:" + info.providerName)))
    else
      var c := Aggregate(s.pacts[info.providerName], EffectiveVersion(info));
      Step(s.(pactsToWrite := Contribute(env, s.pactsToWrite, c)), Ok(()))
  }

  /** `mergeInteractions` appends the new interactions and keeps the pact's identity: the
      hypothesis under which the append lemmas below hold (`mergeInteractions` itself is not
      part of this model). */
  ghost predicate AppendsInteractions(env: Collaborators) {
    forall p: Pact, xs: seq<Interaction> {:trigger env.mergeInteractions(p, xs)} ::
      env.mergeInteractions(p, xs) == p.(interactions := p.interactions + xs)
  }

  /** All interactions of a list of contributions, in contribution order. */
  function AllInteractions(cs: seq<Aggregate>): (r: seq<Interaction>)
    decreases |cs|
  {
    if |cs| == 0 then [] else cs[0].pact.interactions + AllInteractions(cs[1..])
  }

  /** One contribution for a key already present appends its interactions to the stored pact. */
  lemma ContributeToExisting(env: Collaborators, agg: map<PactKey, Aggregate>, key: PactKey, c: Aggregate)
    requires AppendsInteractions(env)
    requires key in agg && KeyOf(c.pact) == key
    ensures key in Contribute(env, agg, c)
    ensures Contribute(env, agg, c)[key].pact
              == agg[key].pact.(interactions := agg[key].pact.interactions + c.pact.interactions)
  {
    assert Contribute(env, agg, c)[key].pact == env.mergeInteractions(agg[key].pact, c.pact.interactions);
  }

  /** Contributions all for `key` remain so after the first is dropped. */
  lemma TailKeys(cs: seq<Aggregate>, key: PactKey)
    requires |cs| > 0
    requires forall i :: 0 <= i < |cs| ==> KeyOf(cs[i].pact) == key
    ensures forall i :: 0 <= i < |cs[1..]| ==> KeyOf(cs[1..][i].pact) == key
  {
    forall i | 0 <= i < |cs[1..]| ensures KeyOf(cs[1..][i].pact) == key {
      assert cs[1..][i] == cs[i + 1];
    }
  }

  /** Contributions for a key already present: the stored pact receives every contribution's
      interactions, in order. */
  lemma {:induction false} ContributeAllToExisting(env: Collaborators, agg: map<PactKey, Aggregate>,
                                                  key: PactKey, cs: seq<Aggregate>)
    requires AppendsInteractions(env)
    requires key in agg
    requires forall i :: 0 <= i < |cs| ==> KeyOf(cs[i].pact) == key
    ensures var r := ContributeAll(env, agg, cs);
            && key in r
            && r[key].pact == agg[key].pact.(interactions :=
                                agg[key].pact.interactions + AllInteractions(cs))
    decreases |cs|
  {
    if |cs| > 0 {
      var next := Contribute(env, agg, cs[0]);
      var tail := cs[1..];
      TailKeys(cs, key);
      ContributeToExisting(env, agg, key, cs[0]);
      ContributeAllToExisting(env, next, key, tail);
      assert ContributeAll(env, agg, cs) == ContributeAll(env, next, tail);
      var before := agg[key].pact.interactions;
      assert before + AllInteractions(cs) == (before + cs[0].pact.interactions) + AllInteractions(tail);
    }
  }

  /** Contributions for a key already present: the stored version becomes the highest of the
      stored one and all contributed ones, and is one of them. */
  lemma {:induction false} ContributeAllVersion(env: Collaborators, agg: map<PactKey, Aggregate>,
                                               key: PactKey, cs: seq<Aggregate>)
    requires key in agg
    requires forall i :: 0 <= i < |cs| ==> KeyOf(cs[i].pact) == key
    ensures var r := ContributeAll(env, agg, cs);
            && key in r
            && r[key].version.Ordinal() >= agg[key].version.Ordinal()
            && (forall i :: 0 <= i < |cs| ==> r[key].version.Ordinal() >= cs[i].version.Ordinal())
            && (r[key].version == agg[key].version
                || exists i :: 0 <= i < |cs| && r[key].version == cs[i].version)
    decreases |cs|
  {
    if |cs| > 0 {
      var next := Contribute(env, agg, cs[0]);
      var tail := cs[1..];
      TailKeys(cs, key);
      ContributeAllVersion(env, next, key, tail);
      var r := ContributeAll(env, next, tail);
      assert r == ContributeAll(env, agg, cs);
      forall i | 0 <= i < |cs| ensures r[key].version.Ordinal() >= cs[i].version.Ordinal() {
        if i > 0 {
          assert cs[i] == tail[i - 1];
        }
      }
      if r[key].version != agg[key].version && r[key].version != next[key].version {
        var j :| 0 <= j < |tail| && r[key].version == tail[j].version;
        assert tail[j] == cs[j + 1];
      }
    }
  }

  /** Aggregation over a test class: contributions for one `(consumer, provider)` identity
      starting from an empty map give a single entry holding the first pact's identity, every
      contributed interaction in contribution order (so their count is the sum of the counts),
      and the highest contributed version. */
  lemma AggregateOneIdentity(env: Collaborators, key: PactKey, cs: seq<Aggregate>)
    requires AppendsInteractions(env)
    requires |cs| > 0
    requires forall i :: 0 <= i < |cs| ==> KeyOf(cs[i].pact) == key
    ensures var r := ContributeAll(env, map[], cs);
            && r.Keys == {key}
            && KeyOf(r[key].pact) == key
            && r[key].pact.interactions == AllInteractions(cs)
            && (forall i :: 0 <= i < |cs| ==> r[key].version.Ordinal() >= cs[i].version.Ordinal())
            && (exists i :: 0 <= i < |cs| && r[key].version == cs[i].version)
  {
    var first := Contribute(env, map[], cs[0]);
    var tail := cs[1..];
    TailKeys(cs, key);
    ContributeAllToExisting(env, first, key, tail);
    ContributeAllVersion(env, first, key, tail);
    var r := ContributeAll(env, first, tail);
    assert r.Keys == {key} by {
      ContributeAllKeeps(env, first, tail);
      assert forall k :: k in KeysOf(tail) ==> k == key;
    }
    assert AllInteractions(cs) == cs[0].pact.interactions + AllInteractions(tail);
    forall i | 0 <= i < |cs| ensures r[key].version.Ordinal() >= cs[i].version.Ordinal() {
      if i > 0 {
        assert cs[i] == tail[i - 1];
      }
    }
    if r[key].version != cs[0].version {
      var j :| 0 <= j < |tail| && r[key].version == tail[j].version;
      assert tail[j] == cs[j + 1];
    }
  }
}

=== FILE: lifecycle.dfy ===
/** The mock server around each test (`setupMockServer`, `beforeTestExecution`,
    `afterTestExecution`): non-ASYNCH providers get a server that is started before the test
    body and closed and validated after it; pacts of a test that raised are never forwarded. */
module MockServerLifecycle {
  import opened Wrappers
  import opened PactTypes
  import opened Selection
  import opened ProviderResolution
  import opened PactCache
  import opened Aggregation

  /** What setting up and starting servers may change: the test-level pact and server maps
      and the executed set only grow, the latter by declared methods only; servers keep their
      pacts; the providers and the aggregation map are untouched. */
  ghost predicate StartFrame(cls: TestClass, s: Store, s2: Store) {
    && s2.pactsToWrite == s.pactsToWrite
    && s2.providers == s.providers
    && s.pacts.Keys <= s2.pacts.Keys
    && s.mockServers.Keys <= s2.mockServers.Keys
    && s.executed <= s2.executed <= s.executed + Declared(cls)
    && (ServersHavePacts(s) ==> ServersHavePacts(s2))
  }

  lemma StartFrameTransitive(cls: TestClass, a: Store, b: Store, c: Store)
    requires StartFrame(cls, a, b) && StartFrame(cls, b, c)
    ensures StartFrame(cls, a, c)
  {
  }

  /** `setupMockServer`: the server stored under "mockServer:<name>", or a new one serving the
      provider's pact. The configuration is stored before the pact is looked up, so it stays
      stored when the lookup fails. */
  function SetupMockServer(env: Collaborators, ctx: Context, s: Store, info: ProviderInfo,
                           pactMethod: string): (st: Step<MockServer>)
    ensures info.providerName in s.mockServers ==>
              st == Step(s, Ok(s.mockServers[info.providerName]))
    ensures info.providerName !in s.mockServers && st.result.Ok? ==>
              && info.providerName in st.store.pacts
              && st.result.value == MockServer(st.store.pacts[info.providerName],
                                               env.mockServerConfig(info))
              && st.store.mockServers == s.mockServers[info.providerName := st.result.value]
    ensures info.providerName !in s.mockServers && st.result.Err? ==>
              st.store == s.(mockServerConfigs :=
                               s.mockServerConfigs[info.providerName := env.mockServerConfig(info)])
    // A new server serves the pact `lookupPact` returns, after the configuration is stored;
    // the lookup's failure is the set-up's.
    ensures info.providerName !in s.mockServers ==>
              var looked := LookupPact(env, ctx, s.(mockServerConfigs :=
                              s.mockServerConfigs[info.providerName := env.mockServerConfig(info)]),
                              info, pactMethod);
              && (st.result.Ok? <==> looked.result.Ok?)
              && (st.result.Ok? ==>
                    && st.result.value == MockServer(looked.result.value, env.mockServerConfig(info))
                    && st.store == looked.store.(mockServers :=
                                     looked.store.mockServers[info.providerName := st.result.value]))
              && (st.result.Err? ==> st.result == Err(looked.result.error))
    ensures st.result.Err? ==>
              || st.result.error.NoPactMethod? || st.result.error.SignatureMismatch?
              || st.result.error.InvocationFailed? || st.result.error == ConversionFailed(V4Form)
    ensures st.store.log == s.log
    ensures StartFrame(ctx.cls, s, st.store)
    ensures st.store.mockServers.Keys <= s.mockServers.Keys + {info.providerName}
  {
    var name := info.providerName;
    if name in s.mockServers then Step(s, Ok(s.mockServers[name]))
    else
      var config := env.mockServerConfig(info);
      var s1 := s.(mockServerConfigs := s.mockServerConfigs[name := config]);
      var looked := LookupPact(env, ctx, s1, info, pactMethod);
      match looked.result
      case Err(e) => Step(looked.store, Err(e))
      case Ok(pact) =>
        var server := MockServer(pact, config);
        Step(looked.store.(mockServers := looked.store.mockServers[name := server]), Ok(server))
  }

  /** The events starting one provider's server logs: started and then waited for, or
      nothing for an ASYNCH provider. */
  function StartEventsOf(t: Target): seq<Event> {
    if t.info.providerType == Some(Asynch) then []
    else [ServerStarted(t.info.providerName), ServerReady(t.info.providerName)]
  }

  /** The events starting the servers of `ts` logs, in list order. */
  function StartEvents(ts: seq<Target>): seq<Event>
    decreases |ts|
  {
    if |ts| == 0 then [] else StartEventsOf(ts[0]) + StartEvents(ts[1..])
  }

  /** The names of the non-ASYNCH providers of `ts`. */
  function ServedNames(ts: seq<Target>): set<string>
    decreases |ts|
  {
    if |ts| == 0 then {}
    else if ts[0].info.providerType == Some(Asynch) then ServedNames(ts[1..])
    else {ts[0].info.providerName} + ServedNames(ts[1..])
  }

  /** Every non-ASYNCH provider of `ts` is among the served names. */
  lemma {:induction false} ServedNamesHas(ts: seq<Target>, k: nat)
    requires k < |ts| && ts[k].info.providerType != Some(Asynch)
    ensures ts[k].info.providerName in ServedNames(ts)
    decreases |ts|
  {
    if k > 0 {
      ServedNamesHas(ts[1..], k - 1);
      assert ts[1..][k - 1] == ts[k];
    }
  }

  /** One iteration of `beforeTestExecution`: for a non-ASYNCH provider the server is set up,
      started and waited for; an ASYNCH provider gets no server. */
  function StartOne(env: Collaborators, ctx: Context, s: Store, t: Target): (st: Step<()>)
    ensures t.info.providerType == Some(Asynch) ==> st == Step(s, Ok(()))
    ensures st.result.Ok? ==> st.store.log == s.log + StartEventsOf(t)
    ensures st.result.Ok? && t.info.providerType != Some(Asynch) ==>
              t.info.providerName in st.store.mockServers
    ensures st.result.Err? && st.result.error.StartupFailed? ==>
              st.store.log == s.log + [ServerStarted(t.info.providerName)]
    // A non-ASYNCH provider starts exactly when its server is set up and comes up; a server
    // that does not come up raises the start-up failure.
    ensures t.info.providerType != Some(Asynch) ==>
              var setup := SetupMockServer(env, ctx, s, t.info, t.pactMethod);
              && (st.result.Ok? <==> setup.result.Ok? && env.comesUp(setup.result.value))
              && (setup.result.Ok? && !env.comesUp(setup.result.value) ==>
                    st.result == Err(StartupFailed(t.info.providerName)))
              && (st.result.Ok? ==> st.store.mockServers == setup.store.mockServers
                                    && st.store.pacts == setup.store.pacts)
    ensures StartFrame(ctx.cls, s, st.store)
    ensures st.store.mockServers.Keys <= s.mockServers.Keys + {t.info.providerName}
  {
    var name := t.info.providerName;
    if t.info.providerType == Some(Asynch) then Step(s, Ok(()))
    else
      var setup := SetupMockServer(env, ctx, s, t.info, t.pactMethod);
      match setup.result
      case Err(e) => Step(setup.store, Err(e))
      case Ok(server) =>
        var started := setup.store.(log := setup.store.log + [ServerStarted(name)]);
        if !env.comesUp(server) then Step(started, Err(StartupFailed(name)))
        else Step(started.(log := started.log + [ServerReady(name)]), Ok(()))
  }

  /** The loop of `beforeTestExecution` over the resolved providers, stopping at the first
      exception. */
  function StartServers(env: Collaborators, ctx: Context, s: Store, ts: seq<Target>): Step<()>
    decreases |ts|
  {
    if |ts| == 0 then Step(s, Ok(()))
    else
      var first := StartOne(env, ctx, s, ts[0]);
      if first.result.Err? then first else StartServers(env, ctx, first.store, ts[1..])
  }

  /** Starting the servers of `ts` changes the store only as setting up servers may, adds
      servers for the non-ASYNCH providers of `ts` only, and, when it succeeds, leaves a server
      stored for every one of them. */
  lemma {:induction false} StartServersFrame(env: Collaborators, ctx: Context, s: Store, ts: seq<Target>)
    ensures var st := StartServers(env, ctx, s, ts);
            && StartFrame(ctx.cls, s, st.store)
            && st.store.mockServers.Keys <= s.mockServers.Keys + ServedNames(ts)
            && (st.result.Ok? ==> ServedNames(ts) <= st.store.mockServers.Keys)
    decreases |ts|
  {
    if |ts| > 0 {
      var first := StartOne(env, ctx, s, ts[0]);
      if first.result.Ok? {
        var rest := StartServers(env, ctx, first.store, ts[1..]);
        StartServersFrame(env, ctx, first.store, ts[1..]);
        StartFrameTransitive(ctx.cls, s, first.store, rest.store);
      }
    }
  }

  /** A successful start loop is its first iteration followed by the loop over the rest. */
  lemma StartServersUnfold(env: Collaborators, ctx: Context, s: Store, ts: seq<Target>)
    requires |ts| > 0
    requires StartServers(env, ctx, s, ts).result.Ok?
    ensures StartOne(env, ctx, s, ts[0]).result.Ok?
    ensures StartOne(env, ctx, s, ts[0]).store.log == s.log + StartEventsOf(ts[0])
    ensures StartServers(env, ctx, s, ts)
              == StartServers(env, ctx, StartOne(env, ctx, s, ts[0]).store, ts[1..])
  {
  }

  /** The start events of a list are those of its first provider followed by the rest's. */
  lemma StartEventsSplit(log: seq<Event>, ts: seq<Target>)
    requires |ts| > 0
    ensures (log + StartEventsOf(ts[0])) + StartEvents(ts[1..]) == log + StartEvents(ts)
  {
    assert StartEvents(ts) == StartEventsOf(ts[0]) + StartEvents(ts[1..]);
    assert (log + StartEventsOf(ts[0])) + StartEvents(ts[1..])
        == log + (StartEventsOf(ts[0]) + StartEvents(ts[1..]));
  }

  /** Starting the servers of `ts` logs, in list order, a start and then a wait for every
      non-ASYNCH provider, and nothing else. */
  lemma {:induction false} StartServersLog(env: Collaborators, ctx: Context, s: Store, ts: seq<Target>)
    requires StartServers(env, ctx, s, ts).result.Ok?
    ensures StartServers(env, ctx, s, ts).store.log == s.log + StartEvents(ts)
    decreases |ts|
  {
    if |ts| > 0 {
      StartServersUnfold(env, ctx, s, ts);
      var first := StartOne(env, ctx, s, ts[0]).store;
      StartServersLog(env, ctx, first, ts[1..]);
      StartEventsSplit(s.log, ts);
    }
  }

  /** Setting up the server of `t` from store `s` succeeds and the server comes up. */
  predicate SetsUp(env: Collaborators, ctx: Context, s: Store, t: Target) {
    var setup := SetupMockServer(env, ctx, s, t.info, t.pactMethod);
    setup.result.Ok? && env.comesUp(setup.result.value)
  }

  /** A set-up's outcome depends on the store only through the server and the pact stored
      for the provider. */
  lemma SetupMockServerLocal(env: Collaborators, ctx: Context, s1: Store, s2: Store, t: Target)
    requires t.info.providerName in s1.mockServers <==> t.info.providerName in s2.mockServers
    requires t.info.providerName in s1.mockServers ==>
               s1.mockServers[t.info.providerName] == s2.mockServers[t.info.providerName]
    requires t.info.providerName in s1.pacts <==> t.info.providerName in s2.pacts
    requires t.info.providerName in s1.pacts ==> s1.pacts[t.info.providerName] == s2.pacts[t.info.providerName]
    ensures SetupMockServer(env, ctx, s1, t.info, t.pactMethod).result
              == SetupMockServer(env, ctx, s2, t.info, t.pactMethod).result
  {
    var name := t.info.providerName;
    if name !in s1.mockServers {
      var c1 := s1.(mockServerConfigs := s1.mockServerConfigs[name := env.mockServerConfig(t.info)]);
      var c2 := s2.(mockServerConfigs := s2.mockServerConfigs[name := env.mockServerConfig(t.info)]);
      LookupPactLocal(env, ctx, c1, c2, t.info, t.pactMethod);
    }
  }

  /** Starting one provider does not spoil the start of another: a provider whose server
      would be set up and come up still does after an earlier provider has started (the same
      server when they share a name, since it is then stored). */
  lemma SetsUpKept(env: Collaborators, ctx: Context, s: Store, t0: Target, t: Target)
    requires StartOne(env, ctx, s, t0).result.Ok?
    requires SetsUp(env, ctx, s, t)
    ensures SetsUp(env, ctx, StartOne(env, ctx, s, t0).store, t)
  {
    if t0.info.providerType != Some(Asynch) {
      if t.info.providerName == t0.info.providerName {
        SetsUpKeptSameName(env, ctx, s, t0, t);
      } else {
        SetsUpKeptOtherName(env, ctx, s, t0, t);
      }
    }
  }

  /** A provider sharing its name with a started one finds that server stored, and it came up. */
  lemma SetsUpKeptSameName(env: Collaborators, ctx: Context, s: Store, t0: Target, t: Target)
    requires t0.info.providerType != Some(Asynch) && t.info.providerName == t0.info.providerName
    requires StartOne(env, ctx, s, t0).result.Ok?
    ensures SetsUp(env, ctx, StartOne(env, ctx, s, t0).store, t)
  {
    var s1 := StartOne(env, ctx, s, t0).store;
    var setup0 := SetupMockServer(env, ctx, s, t0.info, t0.pactMethod);
    assert s1.mockServers[t.info.providerName] == setup0.result.value;
  }

  /** A provider of another name sees the same stored server and pact as before. */
  lemma SetsUpKeptOtherName(env: Collaborators, ctx: Context, s: Store, t0: Target, t: Target)
    requires t0.info.providerType != Some(Asynch) && t.info.providerName != t0.info.providerName
    requires StartOne(env, ctx, s, t0).result.Ok?
    requires SetsUp(env, ctx, s, t)
    ensures SetsUp(env, ctx, StartOne(env, ctx, s, t0).store, t)
  {
    var s1 := StartOne(env, ctx, s, t0).store;
    var n := t.info.providerName;
    assert n in s1.mockServers <==> n in s.mockServers;
    assert n in s.mockServers ==> s1.mockServers[n] == s.mockServers[n];
    assert n in s1.pacts <==> n in s.pacts;
    assert n in s.pacts ==> s1.pacts[n] == s.pacts[n];
    SetupMockServerLocal(env, ctx, s, s1, t);
  }


  /** Starting the servers of `ts` succeeds when, from the starting store, every non-ASYNCH
      provider's server would be set up and come up. */
  lemma {:induction false} StartServersSucceed(env: Collaborators, ctx: Context, s: Store, ts: seq<Target>)
    requires forall k :: 0 <= k < |ts| && ts[k].info.providerType != Some(Asynch) ==> SetsUp(env, ctx, s, ts[k])
    ensures StartServers(env, ctx, s, ts).result.Ok?
    decreases |ts|
  {
    if |ts| > 0 {
      var first := StartOne(env, ctx, s, ts[0]);
      assert first.result.Ok?;
      var tail := ts[1..];
      forall k | 0 <= k < |tail| && tail[k].info.providerType != Some(Asynch)
        ensures SetsUp(env, ctx, first.store, tail[k])
      {
        assert tail[k] == ts[k + 1];
        SetsUpKept(env, ctx, s, ts[0], tail[k]);
      }
      StartServersSucceed(env, ctx, first.store, tail);
      assert StartServers(env, ctx, s, ts) == StartServers(env, ctx, first.store, tail);
    }
  }

  /** `beforeTestExecution`: resolves the providers and starts a server for each non-ASYNCH
      one, in order; an ASYNCH provider gets no server. */
  function BeforeTestExecution(env: Collaborators, ctx: Context, s: Store): (st: Step<()>)
    ensures LookupProviderInfo(env, ctx, s).result.Err? ==>
              st == Step(LookupProviderInfo(env, ctx, s).store, Err(LookupProviderInfo(env, ctx, s).result.error))
    ensures st.result.Ok? ==>
              && LookupProviderInfo(env, ctx, s).result.Ok?
              && st.store.providers == Some(LookupProviderInfo(env, ctx, s).result.value)
    ensures st.result.Ok? ==>
              && st.store.providers.Some?
              && st.store.log == s.log + StartEvents(st.store.providers.value)
              && ServedNames(st.store.providers.value) <= st.store.mockServers.Keys
    ensures st.store.pactsToWrite == s.pactsToWrite
    ensures s.executed <= st.store.executed <= s.executed + Declared(ctx.cls)
    ensures ServersHavePacts(s) ==> ServersHavePacts(st.store)
  {
    var resolved := LookupProviderInfo(env, ctx, s);
    match resolved.result
    case Err(e) => Step(resolved.store, Err(e))
    case Ok(ts) =>
      var st := StartServers(env, ctx, resolved.store, ts);
      StartServersFrame(env, ctx, resolved.store, ts);
      if st.result.Ok? then StartServersLog(env, ctx, resolved.store, ts); st else st
  }
  /** `beforeTestExecution` succeeds when the providers resolve and, from the store holding
      them, every non-ASYNCH provider's server would be set up and come up. */
  lemma BeforeTestExecutionStarts(env: Collaborators, ctx: Context, s: Store)
    requires LookupProviderInfo(env, ctx, s).result.Ok?
    requires var resolved := LookupProviderInfo(env, ctx, s);
             forall k :: 0 <= k < |resolved.result.value| && resolved.result.value[k].info.providerType != Some(Asynch)
               ==> SetsUp(env, ctx, resolved.store, resolved.result.value[k])
    ensures BeforeTestExecution(env, ctx, s).result.Ok?
  {
    var resolved := LookupProviderInfo(env, ctx, s);
    StartServersSucceed(env, ctx, resolved.store, resolved.result.value);
  }


  /** The events forwarding one provider's pact logs when its server validates: closed and
      then validated, or nothing for an ASYNCH provider. */
  function CloseEventsOf(t: Target): seq<Event> {
    if t.info.providerType == Some(Asynch) then []
    else [ServerClosed(t.info.providerName), ServerValidated(t.info.providerName, true)]
  }

  /** The events forwarding the pacts of `ts` logs when every server validates, in list order. */
  function CloseEvents(ts: seq<Target>): seq<Event>
    decreases |ts|
  {
    if |ts| == 0 then [] else CloseEventsOf(ts[0]) + CloseEvents(ts[1..])
  }

  /** The contributions forwarding the pacts of `ts` makes: each provider's stored pact at its
      `pactVersion ?: V3`, in list order. */
  function Contributions(pacts: map<string, Pact>, ts: seq<Target>): (cs: seq<Aggregate>)
    decreases |ts|
  {
    if |ts| == 0 then []
    else if ts[0].info.providerName in pacts then
      [Aggregate(pacts[ts[0].info.providerName], EffectiveVersion(ts[0].info))]
      + Contributions(pacts, ts[1..])
    else Contributions(pacts, ts[1..])
  }

  /** What forwarding a provider's pact needs: the pact stored under "pact:<name>" and, for a
      non-ASYNCH provider, a server stored under "mockServer:<name>" whose verdict is `Ok`. */
  predicate ReadyToForward(s: Store, t: Target, verdict: string -> Verification) {
    && t.info.providerName in s.pacts
    && (t.info.providerType != Some(Asynch) ==>
          t.info.providerName in s.mockServers && verdict(t.info.providerName).VerificationOk?)
  }

  /** One iteration of `afterTestExecution`: an ASYNCH provider's pact is forwarded outright;
      a non-ASYNCH provider's server is closed and validated and its pact forwarded only on
      `Ok`, a mismatch raising the validation failure. */
  function ForwardOne(env: Collaborators, s: Store, t: Target, verdict: string -> Verification)
    : (st: Step<()>)
    ensures st.result.Ok? ==> t.info.providerName in s.pacts
    ensures st.result.Ok? && t.info.providerType != Some(Asynch) ==>
              verdict(t.info.providerName).VerificationOk?
    ensures st.result.Ok? ==>
              && st.store.pactsToWrite == Contribute(env, s.pactsToWrite,
                                            Aggregate(s.pacts[t.info.providerName], EffectiveVersion(t.info)))
              && st.store.log == s.log + CloseEventsOf(t)
    ensures st.result.Err? && st.result.error.ValidationFailed? ==>
              && t.info.providerType != Some(Asynch)
              && t.info.providerName == st.result.error.provider
              && verdict(t.info.providerName) == Mismatch(st.result.error.details)
    ensures st.result.Err? ==> st.store.pactsToWrite == s.pactsToWrite
    ensures VersionsKept(s.pactsToWrite, st.store.pactsToWrite)
    ensures st.store == s.(pactsToWrite := st.store.pactsToWrite, log := st.store.log)
  {
    var name := t.info.providerName;
    if t.info.providerType == Some(Asynch) then StorePactForWrite(env, s, t.info)
    else if name !in s.mockServers then Step(s, Err(MissingStoreEntry("mockServer:" + name)))
    else
      var closed := s.(log := s.log + [ServerClosed(name)]);
      var v := verdict(name);
      var validated := closed.(log := closed.log + [ServerValidated(name, v.VerificationOk?)]);
      if v.Mismatch? then Step(validated, Err(ValidationFailed(name, v.details)))
      else StorePactForWrite(env, validated, t.info)
  }

  /** Forwarding one provider's pact succeeds exactly when it is ready to forward: an ASYNCH
      provider's stored pact is always forwarded, a non-ASYNCH provider's when its server
      validates; a non-ASYNCH provider without a stored server fails reading it. */
  lemma ForwardOneReady(env: Collaborators, s: Store, t: Target, verdict: string -> Verification)
    ensures ForwardOne(env, s, t, verdict).result.Ok? <==> ReadyToForward(s, t, verdict)
    ensures t.info.providerType != Some(Asynch) && t.info.providerName !in s.mockServers ==>
              ForwardOne(env, s, t, verdict).result
                == Err(MissingStoreEntry("mockServer:" + t.info.providerName))
  {
  }

  /** The loop of `afterTestExecution` over the resolved providers, stopping at the first
      exception. */
  function ForwardAll(env: Collaborators, s: Store, ts: seq<Target>,
                      verdict: string -> Verification): (st: Step<()>)
    ensures st.result.Ok? ==> forall k :: 0 <= k < |ts| ==> ts[k].info.providerName in s.pacts
    ensures st.result.Ok? ==> forall k :: 0 <= k < |ts| ==>
              ts[k].info.providerType != Some(Asynch) ==> verdict(ts[k].info.providerName).VerificationOk?
    ensures st.result.Err? && st.result.error.ValidationFailed? ==>
              exists k :: 0 <= k < |ts| && ts[k].info.providerType != Some(Asynch)
                          && ts[k].info.providerName == st.result.error.provider
                          && verdict(ts[k].info.providerName) == Mismatch(st.result.error.details)
    ensures VersionsKept(s.pactsToWrite, st.store.pactsToWrite)
    ensures st.store == s.(pactsToWrite := st.store.pactsToWrite, log := st.store.log)
    decreases |ts|
  {
    if |ts| == 0 then Step(s, Ok(()))
    else
      var first := ForwardOne(env, s, ts[0], verdict);
      if first.result.Err? then first
      else
        var rest := ForwardAll(env, first.store, ts[1..], verdict);
        assert forall i :: 1 <= i < |ts| ==> ts[i] == ts[1..][i - 1];
        VersionsKeptTransitive(s.pactsToWrite, first.store.pactsToWrite, rest.store.pactsToWrite);
        rest
  }

  /** Forwarding the pacts of `ts` succeeds exactly when every provider of `ts` is ready to
      forward: an ASYNCH provider is always forwarded once its pact is stored, and a
      non-ASYNCH one once its server is stored and validates. */
  lemma {:induction false} ForwardAllReady(env: Collaborators, s: Store, ts: seq<Target>,
                                           verdict: string -> Verification)
    ensures ForwardAll(env, s, ts, verdict).result.Ok? <==>
              forall k :: 0 <= k < |ts| ==> ReadyToForward(s, ts[k], verdict)
    decreases |ts|
  {
    if |ts| > 0 {
      var first := ForwardOne(env, s, ts[0], verdict);
      ForwardOneReady(env, s, ts[0], verdict);
      if first.result.Ok? {
        ForwardAllReady(env, first.store, ts[1..], verdict);
        assert ForwardAll(env, s, ts, verdict) == ForwardAll(env, first.store, ts[1..], verdict);
        assert forall k :: 1 <= k < |ts| ==> ts[k] == ts[1..][k - 1];
        assert first.store.pacts == s.pacts && first.store.mockServers == s.mockServers;
        if forall k :: 0 <= k < |ts[1..]| ==> ReadyToForward(first.store, ts[1..][k], verdict) {
          forall k | 0 <= k < |ts|
            ensures ReadyToForward(s, ts[k], verdict)
          {
            if k > 0 {
              assert ReadyToForward(first.store, ts[1..][k - 1], verdict);
            }
          }
        } else {
          var k :| 0 <= k < |ts[1..]| && !ReadyToForward(first.store, ts[1..][k], verdict);
          assert !ReadyToForward(s, ts[k + 1], verdict);
        }
      }
    }
  }

  /** The events forwarding a provider that is not ready logs before it raises: close and
      validation when its server is stored and it is not ASYNCH, and nothing otherwise. */
  function FailedForwardEvents(s: Store, t: Target, verdict: string -> Verification): seq<Event> {
    if t.info.providerType == Some(Asynch) || t.info.providerName !in s.mockServers then []
    else [ServerClosed(t.info.providerName),
          ServerValidated(t.info.providerName, verdict(t.info.providerName).VerificationOk?)]
  }

  /** Forwarding a provider that is not ready raises, leaves the aggregation map as it was,
      and logs only the close and validation that came before the failure. */
  lemma ForwardOneFailure(env: Collaborators, s: Store, t: Target, verdict: string -> Verification)
    requires !ReadyToForward(s, t, verdict)
    ensures var st := ForwardOne(env, s, t, verdict);
            && st.result.Err?
            && st.store.pactsToWrite == s.pactsToWrite
            && st.store.log == s.log + FailedForwardEvents(s, t, verdict)
  {
    ForwardOneReady(env, s, t, verdict);
  }

  /** Forwarding one provider reads the store only through its pacts and servers. */
  lemma ForwardOneLocal(env: Collaborators, s1: Store, s2: Store, t: Target, verdict: string -> Verification)
    requires s1.pacts == s2.pacts && s1.mockServers == s2.mockServers
    ensures ForwardOne(env, s1, t, verdict).result == ForwardOne(env, s2, t, verdict).result
  {
  }

  /** When `ts[j]` is the first provider not ready to forward, the pass raises that provider's
      failure after the earlier providers' pacts were already aggregated and their close and
      validation logged; nothing after `ts[j]` is attempted. */
  lemma ForwardAllStopsAt(env: Collaborators, s: Store, ts: seq<Target>,
                          verdict: string -> Verification, j: nat)
    requires j < |ts|
    requires forall i :: 0 <= i < j ==> ReadyToForward(s, ts[i], verdict)
    requires !ReadyToForward(s, ts[j], verdict)
    ensures var st := ForwardAll(env, s, ts, verdict);
            && st.result == ForwardOne(env, s, ts[j], verdict).result
            && st.store.pactsToWrite == ContributeAll(env, s.pactsToWrite, Contributions(s.pacts, ts[..j]))
            && st.store.log == s.log + CloseEvents(ts[..j]) + FailedForwardEvents(s, ts[j], verdict)
  {
    StopsAtResult(env, s, ts, verdict, j);
    StopsAtAggregation(env, s, ts, verdict, j);
    StopsAtLog(env, s, ts, verdict, j);
  }

  /** A pass whose first provider is ready forwards it and carries on from the store that
      leaves, in which only the aggregation map and the log have changed. */
  lemma ForwardAllFirstReady(env: Collaborators, s: Store, ts: seq<Target>, verdict: string -> Verification)
    requires |ts| > 0 && ReadyToForward(s, ts[0], verdict)
    ensures var first := ForwardOne(env, s, ts[0], verdict);
            && first.result.Ok?
            && ForwardAll(env, s, ts, verdict) == ForwardAll(env, first.store, ts[1..], verdict)
            && first.store == s.(pactsToWrite := Contribute(env, s.pactsToWrite,
                                   Aggregate(s.pacts[ts[0].info.providerName], EffectiveVersion(ts[0].info))),
                                 log := s.log + CloseEventsOf(ts[0]))
  {
    ForwardOneReady(env, s, ts[0], verdict);
  }

  /** Readiness of the providers after the first carries over to the store the first leaves. */
  lemma ReadyShift(s: Store, s1: Store, ts: seq<Target>, verdict: string -> Verification, j: nat)
    requires 0 < j < |ts|
    requires s1.pacts == s.pacts && s1.mockServers == s.mockServers
    requires forall i :: 0 <= i < j ==> ReadyToForward(s, ts[i], verdict)
    requires !ReadyToForward(s, ts[j], verdict)
    ensures forall i :: 0 <= i < j - 1 ==> ReadyToForward(s1, ts[1..][i], verdict)
    ensures !ReadyToForward(s1, ts[1..][j - 1], verdict)
  {
    forall i | 0 <= i < j - 1
      ensures ReadyToForward(s1, ts[1..][i], verdict)
    {
      assert ts[1..][i] == ts[i + 1];
    }
    assert ts[1..][j - 1] == ts[j];
  }

  lemma {:induction false} StopsAtResult(env: Collaborators, s: Store, ts: seq<Target>,
                                         verdict: string -> Verification, j: nat)
    requires j < |ts|
    requires forall i :: 0 <= i < j ==> ReadyToForward(s, ts[i], verdict)
    requires !ReadyToForward(s, ts[j], verdict)
    ensures ForwardAll(env, s, ts, verdict).result == ForwardOne(env, s, ts[j], verdict).result
    decreases |ts|
  {
    if j == 0 {
      ForwardOneFailure(env, s, ts[0], verdict);
    } else {
      ForwardAllFirstReady(env, s, ts, verdict);
      var s1 := ForwardOne(env, s, ts[0], verdict).store;
      ReadyShift(s, s1, ts, verdict, j);
      StopsAtResult(env, s1, ts[1..], verdict, j - 1);
      assert ts[1..][j - 1] == ts[j];
      ForwardOneLocal(env, s1, s, ts[j], verdict);
    }
  }

  lemma {:induction false} StopsAtAggregation(env: Collaborators, s: Store, ts: seq<Target>,
                                              verdict: string -> Verification, j: nat)
    requires j < |ts|
    requires forall i :: 0 <= i < j ==> ReadyToForward(s, ts[i], verdict)
    requires !ReadyToForward(s, ts[j], verdict)
    ensures ForwardAll(env, s, ts, verdict).store.pactsToWrite
              == ContributeAll(env, s.pactsToWrite, Contributions(s.pacts, ts[..j]))
    decreases |ts|
  {
    if j == 0 {
      ForwardOneFailure(env, s, ts[0], verdict);
      assert Contributions(s.pacts, ts[..0]) == [];
    } else {
      ForwardAllFirstReady(env, s, ts, verdict);
      var s1 := ForwardOne(env, s, ts[0], verdict).store;
      ReadyShift(s, s1, ts, verdict, j);
      StopsAtAggregation(env, s1, ts[1..], verdict, j - 1);
      ForwardPrefixSplit(env, s, ts, j);
    }
  }

  lemma {:induction false} StopsAtLog(env: Collaborators, s: Store, ts: seq<Target>,
                                      verdict: string -> Verification, j: nat)
    requires j < |ts|
    requires forall i :: 0 <= i < j ==> ReadyToForward(s, ts[i], verdict)
    requires !ReadyToForward(s, ts[j], verdict)
    ensures ForwardAll(env, s, ts, verdict).store.log
              == s.log + CloseEvents(ts[..j]) + FailedForwardEvents(s, ts[j], verdict)
    decreases |ts|
  {
    var failed := FailedForwardEvents(s, ts[j], verdict);
    if j == 0 {
      ForwardOneFailure(env, s, ts[0], verdict);
      assert CloseEvents(ts[..0]) == [];
    } else {
      ForwardAllFirstReady(env, s, ts, verdict);
      var s1 := ForwardOne(env, s, ts[0], verdict).store;
      ReadyShift(s, s1, ts, verdict, j);
      StopsAtLog(env, s1, ts[1..], verdict, j - 1);
      assert ts[1..][j - 1] == ts[j];
      assert FailedForwardEvents(s1, ts[1..][j - 1], verdict) == failed;
      ForwardPrefixSplit(env, s, ts, j);
      LogRegroup(s.log, CloseEventsOf(ts[0]), CloseEvents(ts[1..][..j - 1]), CloseEvents(ts[..j]), failed);
    }
  }

  /** A log extended piecewise equals the log extended by the pieces joined. */
  lemma LogRegroup(log: seq<Event>, a: seq<Event>, b: seq<Event>, ab: seq<Event>, f: seq<Event>)
    requires ab == a + b
    ensures (log + a) + b + f == log + ab + f
  {
  }

  /** The contributions and close events of the first `j` providers, when the first of them
      has its pact stored, are its own followed by those of the next `j - 1`. */
  lemma ForwardPrefixSplit(env: Collaborators, s: Store, ts: seq<Target>, j: nat)
    requires 0 < j <= |ts| && ts[0].info.providerName in s.pacts
    ensures ContributeAll(env, s.pactsToWrite, Contributions(s.pacts, ts[..j]))
              == ContributeAll(env, Contribute(env, s.pactsToWrite,
                                               Aggregate(s.pacts[ts[0].info.providerName], EffectiveVersion(ts[0].info))),
                               Contributions(s.pacts, ts[1..][..j - 1]))
    ensures CloseEvents(ts[..j]) == CloseEventsOf(ts[0]) + CloseEvents(ts[1..][..j - 1])
  {
    var prefix := ts[..j];
    assert prefix[0] == ts[0] && prefix[1..] == ts[1..][..j - 1];
    var cs := Contributions(s.pacts, prefix);
    assert cs == [Aggregate(s.pacts[ts[0].info.providerName], EffectiveVersion(ts[0].info))]
                 + Contributions(s.pacts, prefix[1..]);
    assert cs[1..] == Contributions(s.pacts, prefix[1..]);
  }

  /** Forwarding every provider of `ts` aggregates their stored pacts in list order: the
      aggregation map afterwards is the one obtained by contributing each provider's pact, at
      `pactVersion ?: V3`, one after the other. */
  lemma {:induction false} ForwardAllAggregates(env: Collaborators, s: Store, ts: seq<Target>,
                                                verdict: string -> Verification)
    requires ForwardAll(env, s, ts, verdict).result.Ok?
    ensures ForwardAll(env, s, ts, verdict).store.pactsToWrite
              == ContributeAll(env, s.pactsToWrite, Contributions(s.pacts, ts))
    decreases |ts|
  {
    if |ts| > 0 {
      var first := ForwardOne(env, s, ts[0], verdict);
      var rest := ForwardAll(env, first.store, ts[1..], verdict);
      assert ForwardAll(env, s, ts, verdict) == rest;
      ForwardAllAggregates(env, first.store, ts[1..], verdict);
      assert Contributions(s.pacts, ts)
          == [Aggregate(s.pacts[ts[0].info.providerName], EffectiveVersion(ts[0].info))]
             + Contributions(s.pacts, ts[1..]);
    }
  }

  /** Forwarding every provider of `ts` logs, in list order, a close and then a successful
      validation for every non-ASYNCH provider, and nothing else. */
  lemma {:induction false} ForwardAllLog(env: Collaborators, s: Store, ts: seq<Target>,
                                         verdict: string -> Verification)
    requires ForwardAll(env, s, ts, verdict).result.Ok?
    ensures ForwardAll(env, s, ts, verdict).store.log == s.log + CloseEvents(ts)
    decreases |ts|
  {
    if |ts| > 0 {
      var first := ForwardOne(env, s, ts[0], verdict);
      var rest := ForwardAll(env, first.store, ts[1..], verdict);
      assert ForwardAll(env, s, ts, verdict) == rest;
      ForwardAllLog(env, first.store, ts[1..], verdict);
      assert rest.store.log == (s.log + CloseEventsOf(ts[0])) + CloseEvents(ts[1..]);
    }
  }

  /** `afterTestExecution`: nothing at all happens after a test that raised; otherwise the
      resolved providers' pacts are forwarded, which succeeds exactly when every provider is
      ready to forward. */
  function AfterTestExecution(env: Collaborators, s: Store, raised: bool,
                              verdict: string -> Verification): (st: Step<()>)
    ensures raised ==> st == Step(s, Ok(()))
    ensures !raised && s.providers.None? ==> st.result == Err(MissingStoreEntry("providers"))
    ensures !raised ==>
              (st.result.Ok? <==> s.providers.Some? && forall k :: 0 <= k < |s.providers.value| ==>
                                    ReadyToForward(s, s.providers.value[k], verdict))
    ensures !raised && st.result.Ok? ==>
              && s.providers.Some?
              && st.store.pactsToWrite
                   == ContributeAll(env, s.pactsToWrite, Contributions(s.pacts, s.providers.value))
              && st.store.log == s.log + CloseEvents(s.providers.value)
    ensures VersionsKept(s.pactsToWrite, st.store.pactsToWrite)
    ensures st.store == s.(pactsToWrite := st.store.pactsToWrite, log := st.store.log)
  {
    if raised then Step(s, Ok(()))
    else if s.providers.None? then Step(s, Err(MissingStoreEntry("providers")))
    else
      var st := ForwardAll(env, s, s.providers.value, verdict);
      ForwardAllReady(env, s, s.providers.value, verdict);
      if st.result.Ok? then
        ForwardAllAggregates(env, s, s.providers.value, verdict);
        ForwardAllLog(env, s, s.providers.value, verdict);
        st
      else st
  }

  /** After a test that did not raise, forwarding stops at the first resolved provider that is
      not ready: the step raises that provider's failure, having aggregated the pacts of the
      providers before it and logged their close and validation. */
  lemma AfterTestExecutionStopsAt(env: Collaborators, s: Store, verdict: string -> Verification, j: nat)
    requires s.providers.Some? && j < |s.providers.value|
    requires forall i :: 0 <= i < j ==> ReadyToForward(s, s.providers.value[i], verdict)
    requires !ReadyToForward(s, s.providers.value[j], verdict)
    ensures var st := AfterTestExecution(env, s, false, verdict);
            var ts := s.providers.value;
            && st.result == ForwardOne(env, s, ts[j], verdict).result
            && st.result.Err?
            && st.store.pactsToWrite == ContributeAll(env, s.pactsToWrite, Contributions(s.pacts, ts[..j]))
            && st.store.log == s.log + CloseEvents(ts[..j]) + FailedForwardEvents(s, ts[j], verdict)
  {
    ForwardAllStopsAt(env, s, s.providers.value, verdict, j);
    ForwardOneFailure(env, s, s.providers.value[j], verdict);
  }
}

=== FILE: pactcache.dfy ===
/** Building and caching the pact for a provider (`lookupPact`): the `@Pact` method is chosen,
    its signature checked against the provider type, invoked with the matching builder, and the
    resulting pact memoised under the provider's name. */
module PactCache {
  import opened Wrappers
  import opened PactTypes
  import opened Selection

  /** The provider name searched for: an empty name becomes "default". */
  function SearchName(info: ProviderInfo): (r: string)
    ensures r != ""
    ensures info.providerName != "" ==> r == info.providerName
  {
    IfEmpty(info.providerName, "default")
  }

  /** The signature form a provider type demands of its `@Pact` method: request/response for
      SYNCH (the default), message for ASYNCH, and no check at all for UNSPECIFIED. */
  function RequiredForm(info: ProviderInfo): Option<PactForm> {
    match EffectiveType(info)
    case Synch => Some(RequestResponseForm)
    case Asynch => Some(MessageForm)
    case Unspecified => None
  }

  /** Whether `m` passes the signature check `lookupPact` performs for `info`. */
  predicate Conforms(env: Collaborators, m: PactMethod, info: ProviderInfo) {
    match RequiredForm(info)
    case None => true
    case Some(RequestResponseForm) => env.conformsToSignature(m, EffectiveVersion(info))
    case Some(MessageForm) => env.conformsToMessageSignature(m, EffectiveVersion(info))
    case Some(V4Form) => false
  }

  /** The builder `lookupPact` hands to the method: a message builder at `pactVersion ?: V3`
      for ASYNCH, otherwise a request/response builder carrying the provider's own
      (possibly unset) version. The provider name is the substituted `@Pact.provider`, or the
      searched name when substitution yields nothing or an empty string. */
  function BuilderFor(env: Collaborators, m: PactMethod, info: ProviderInfo): (b: Builder)
    ensures b.MessageBuilder? <==> EffectiveType(info) == Asynch
    ensures b.MessageBuilder? ==> b.messageVersion == EffectiveVersion(info)
    ensures b.RequestResponseBuilder? ==> b.version == info.pactVersion
    ensures b.consumer == ParsedOrRaw(env.parse, m.consumer)
    ensures b.provider != ""
    ensures env.parse(m.provider).Some? && env.parse(m.provider).value != "" ==>
              b.provider == env.parse(m.provider).value
    ensures env.parse(m.provider).None? || env.parse(m.provider).value == "" ==>
              b.provider == SearchName(info)
  {
    var consumer := ParsedOrRaw(env.parse, m.consumer);
    var parsed := env.parse(m.provider);
    var provider := if parsed.None? || parsed.value == "" then SearchName(info) else parsed.value;
    if EffectiveType(info) == Asynch then MessageBuilder(consumer, provider, EffectiveVersion(info))
    else RequestResponseBuilder(consumer, provider, info.pactVersion)
  }

  /** Sets the `testname` comment of every interaction to `tag`. */
  function TagInteractions(xs: seq<Interaction>, tag: string): (r: seq<Interaction>)
    ensures |r| == |xs|
    ensures forall i :: 0 <= i < |xs| ==>
              r[i].description == xs[i].description && r[i].testName == Some(tag)
  {
    seq(|xs|, i requires 0 <= i < |xs| => xs[i].(testName := Some(tag)))
  }

  /** The `testname` label: the test class's name, a dot, and the test's display name. */
  function TestLabel(ctx: Context): string {
    ctx.cls.qualifiedName + "." + ctx.test.displayName
  }

  /** `lookupPact`: the pact cached under "pact:<providerName>", or a freshly built one. */
  function LookupPact(env: Collaborators, ctx: Context, s: Store, info: ProviderInfo,
                      pactMethod: string): (st: Step<Pact>)
    // Cached: the stored pact comes back and nothing changes.
    ensures info.providerName in s.pacts ==> st == Step(s, Ok(s.pacts[info.providerName]))
    // A failure leaves the store as it was: a missing or non-conforming method, a method that
    // throws, or a V4 pact that cannot be viewed as one.
    ensures st.result.Err? ==> st.store == s
    ensures st.result.Err? ==>
              || st.result.error.NoPactMethod? || st.result.error.SignatureMismatch?
              || st.result.error.InvocationFailed? || st.result.error == ConversionFailed(V4Form)
    // Only the pact map and the executed set change, the latter by a declared method at most.
    ensures st.store == s.(pacts := st.store.pacts, executed := st.store.executed)
    ensures s.pacts.Keys <= st.store.pacts.Keys
    ensures s.executed <= st.store.executed <= s.executed + Declared(ctx.cls)
    // A fresh build stores the pact under the provider's own (possibly empty) name and records
    // the chosen method, which is a registry method qualifying for the request, conforming
    // to the provider type, and preceded by no qualifying method. The pact is the one that
    // method built when handed its builder, its interactions labelled with the test for V4.
    ensures info.providerName !in s.pacts && st.result.Ok? ==>
              exists i :: 0 <= i < |ctx.cls.pactMethods|
                && Eligible(env.parse, ctx.cls.pactMethods[i], Some(SearchName(info)), pactMethod)
                && (forall j :: 0 <= j < i ==>
                     !Eligible(env.parse, ctx.cls.pactMethods[j], Some(SearchName(info)), pactMethod))
                && Conforms(env, ctx.cls.pactMethods[i], info)
                && env.invoke(ctx.cls.pactMethods[i], BuilderFor(env, ctx.cls.pactMethods[i], info)).Some?
                && (var built :=
                      env.invoke(ctx.cls.pactMethods[i], BuilderFor(env, ctx.cls.pactMethods[i], info)).value;
                    st.result.value == if info.pactVersion == Some(V4)
                                       then built.(interactions := TagInteractions(built.interactions, TestLabel(ctx)))
                                       else built)
                && st.store == s.(pacts := s.pacts[info.providerName := st.result.value],
                                  executed := s.executed + {ctx.cls.pactMethods[i]})
    // No qualifying method is a configuration error.
    ensures info.providerName !in s.pacts ==>
              ((forall j :: 0 <= j < |ctx.cls.pactMethods| ==>
                  !Eligible(env.parse, ctx.cls.pactMethods[j], Some(SearchName(info)), pactMethod))
               <==> st.result == Err(NoPactMethod(ctx.cls.simpleName, info.providerName)))
  {
    if info.providerName in s.pacts then Step(s, Ok(s.pacts[info.providerName]))
    else
      var methods := ctx.cls.pactMethods;
      match SelectPactMethod(env.parse, methods, Some(SearchName(info)), pactMethod)
      case None => Step(s, Err(NoPactMethod(ctx.cls.simpleName, info.providerName)))
      case Some(i) =>
        var m := methods[i];
        if !Conforms(env, m, info) then Step(s, Err(SignatureMismatch(m.name, RequiredForm(info).value)))
        else
          match env.invoke(m, BuilderFor(env, m, info))
          case None => Step(s, Err(InvocationFailed(m.name)))
          case Some(built) =>
            if info.pactVersion == Some(V4) && env.viewAs(built, V4Form).None?
            then Step(s, Err(ConversionFailed(V4Form)))
            else
              var pact :=
                if info.pactVersion == Some(V4)
                then built.(interactions := TagInteractions(built.interactions, TestLabel(ctx)))
                else built;
              Step(s.(pacts := s.pacts[info.providerName := pact], executed := s.executed + {m}),
                   Ok(pact))
  }

  /** The single-invocation guarantee: once a lookup succeeds, looking up the same provider
      again returns the same pact, invokes nothing and leaves the store unchanged, whatever
      method name is passed. */
  lemma LookupPactIdempotent(env: Collaborators, ctx: Context, s: Store, info: ProviderInfo,
                             pactMethod: string, again: string)
    requires LookupPact(env, ctx, s, info, pactMethod).result.Ok?
    ensures var st := LookupPact(env, ctx, s, info, pactMethod);
            LookupPact(env, ctx, st.store, info, again) == Step(st.store, st.result)
  {
  }

  /** A lookup's outcome depends on the store only through the pact cached for the provider:
      two stores caching the same pact for it, or none, give the same result. */
  lemma LookupPactLocal(env: Collaborators, ctx: Context, s1: Store, s2: Store, info: ProviderInfo,
                        pactMethod: string)
    requires info.providerName in s1.pacts <==> info.providerName in s2.pacts
    requires info.providerName in s1.pacts ==> s1.pacts[info.providerName] == s2.pacts[info.providerName]
    ensures LookupPact(env, ctx, s1, info, pactMethod).result == LookupPact(env, ctx, s2, info, pactMethod).result
  {
  }

  /** The signature check by provider type: an unset type is SYNCH and an unset version V3;
      SYNCH is checked against the request/response signature, ASYNCH against the message
      signature, and UNSPECIFIED is not checked. A method failing its check yields the
      signature error naming it and the form it lacks; with no V4 version requested, a method
      passing its check and building a pact always yields that pact. */
  lemma SignatureCheckByType(env: Collaborators, ctx: Context, s: Store, info: ProviderInfo,
                             pactMethod: string)
    requires info.providerName !in s.pacts
    requires SelectPactMethod(env.parse, ctx.cls.pactMethods, Some(SearchName(info)), pactMethod).Some?
    ensures var m := ctx.cls.pactMethods[
              SelectPactMethod(env.parse, ctx.cls.pactMethods, Some(SearchName(info)), pactMethod).value];
            var r := LookupPact(env, ctx, s, info, pactMethod).result;
            var mismatch := r.Err? && r.error.SignatureMismatch?;
            && (info.providerType in {None, Some(Synch)} ==>
                  (mismatch <==> !env.conformsToSignature(m, info.pactVersion.GetOr(V3))))
            && (info.providerType == Some(Asynch) ==>
                  (mismatch <==> !env.conformsToMessageSignature(m, info.pactVersion.GetOr(V3))))
            && (info.providerType == Some(Unspecified) ==> !mismatch)
            && (mismatch ==> r.error.methodName == m.name
                             && r.error.expected == (if info.providerType == Some(Asynch)
                                                     then MessageForm else RequestResponseForm))
            && (info.pactVersion != Some(V4) && env.invoke(m, BuilderFor(env, m, info)).Some? ==>
                  (r.Ok? <==> !mismatch))
  {
  }

  /** An empty provider name is searched as "default": with no method name given, the method
      chosen is the first whose substituted provider is empty or "default", never simply the
      first method. */
  lemma EmptyProviderSearchesDefault(env: Collaborators, ctx: Context, s: Store, info: ProviderInfo)
    requires info.providerName == "" && "" !in s.pacts
    requires LookupPact(env, ctx, s, info, "").result.Ok?
    ensures exists i :: 0 <= i < |ctx.cls.pactMethods|
              && ParsedOrRaw(env.parse, ctx.cls.pactMethods[i].provider) in {"", "default"}
              && LookupPact(env, ctx, s, info, "").store.executed == s.executed + {ctx.cls.pactMethods[i]}
  {
    var i :| 0 <= i < |ctx.cls.pactMethods|
             && Eligible(env.parse, ctx.cls.pactMethods[i], Some("default"), "")
             && LookupPact(env, ctx, s, info, "").store.executed == s.executed + {ctx.cls.pactMethods[i]};
    assert ParsedOrRaw(env.parse, ctx.cls.pactMethods[i].provider) in {"", "default"};
  }

  /** V4 pacts are tagged: every interaction of a freshly built V4 pact carries the test label,
      the interactions are those the method built, in order, and the pact keeps the identity
      the method gave it. */
  lemma V4PactsTagged(env: Collaborators, ctx: Context, s: Store, info: ProviderInfo,
                      pactMethod: string)
    requires info.providerName !in s.pacts && info.pactVersion == Some(V4)
    requires LookupPact(env, ctx, s, info, pactMethod).result.Ok?
    ensures var i := SelectPactMethod(env.parse, ctx.cls.pactMethods, Some(SearchName(info)), pactMethod).value;
            var m := ctx.cls.pactMethods[i];
            var built := env.invoke(m, BuilderFor(env, m, info)).value;
            var p := LookupPact(env, ctx, s, info, pactMethod).result.value;
            && p.consumer == built.consumer && p.provider == built.provider
            && |p.interactions| == |built.interactions|
            && forall k :: 0 <= k < |p.interactions| ==>
                 && p.interactions[k].testName == Some(TestLabel(ctx))
                 && p.interactions[k].description == built.interactions[k].description
  {
  }

  /** A V4 provider whose chosen, conforming method builds a pact fails the lookup exactly
      when that pact cannot be viewed as a V4 pact, before the method is recorded as executed,
      and succeeds exactly when it can. */
  lemma V4ConversionFailure(env: Collaborators, ctx: Context, s: Store, info: ProviderInfo,
                            pactMethod: string)
    requires info.providerName !in s.pacts && info.pactVersion == Some(V4)
    requires SelectPactMethod(env.parse, ctx.cls.pactMethods, Some(SearchName(info)), pactMethod).Some?
    requires var m := ctx.cls.pactMethods[
               SelectPactMethod(env.parse, ctx.cls.pactMethods, Some(SearchName(info)), pactMethod).value];
             Conforms(env, m, info) && env.invoke(m, BuilderFor(env, m, info)).Some?
    ensures var m := ctx.cls.pactMethods[
              SelectPactMethod(env.parse, ctx.cls.pactMethods, Some(SearchName(info)), pactMethod).value];
            var st := LookupPact(env, ctx, s, info, pactMethod);
            && (st.result == Err(ConversionFailed(V4Form))
                <==> env.viewAs(env.invoke(m, BuilderFor(env, m, info)).value, V4Form).None?)
            && (st.result.Ok? <==> env.viewAs(env.invoke(m, BuilderFor(env, m, info)).value, V4Form).Some?)
            && (st.result.Err? ==> st.store.executed == s.executed)
  {
  }

  /** A chosen, conforming method that throws (or builds no pact) fails the lookup with an
      error naming it; nothing is stored and nothing is recorded as executed. */
  lemma InvocationFailure(env: Collaborators, ctx: Context, s: Store, info: ProviderInfo,
                          pactMethod: string)
    requires info.providerName !in s.pacts
    requires SelectPactMethod(env.parse, ctx.cls.pactMethods, Some(SearchName(info)), pactMethod).Some?
    requires var m := ctx.cls.pactMethods[
               SelectPactMethod(env.parse, ctx.cls.pactMethods, Some(SearchName(info)), pactMethod).value];
             Conforms(env, m, info) && env.invoke(m, BuilderFor(env, m, info)).None?
    ensures var m := ctx.cls.pactMethods[
              SelectPactMethod(env.parse, ctx.cls.pactMethods, Some(SearchName(info)), pactMethod).value];
            LookupPact(env, ctx, s, info, pactMethod) == Step(s, Err(InvocationFailed(m.name)))
  {
  }
}

=== FILE: parameters.dfy ===
/** Injecting test-method parameters (`supportsParameter`, `resolveParameter`,
    `resolveParameterForProvider`): which parameter types the extension accepts, which provider
    a parameter is for, and the value injected for it. */
module ParameterDispatch {
  import opened Wrappers
  import opened PactTypes
  import opened Selection
  import opened ProviderResolution
  import opened PactCache
  import opened MockServerLifecycle

  /** The injectable types the extension knows: `List` (of interactions), `V4Pact`,
      `MessagePact`, `MockServer` and `RequestResponsePact`. */
  datatype InjectableKind = ListKind | V4PactKind | MessagePactKind | MockServerKind | RequestResponsePactKind

  /** A test-method parameter: the injectable types its declared type is assignable from
      (`type.isAssignableFrom(X)` holds exactly for the kinds in `accepts`, so a parameter of
      type `Object` accepts them all), its `@ForProvider` value if annotated, and its index. */
  datatype Parameter = Parameter(accepts: set<InjectableKind>, forProvider: Option<string>, index: nat)

  /** The value injected into a parameter. */
  datatype Injected =
    | Interactions(items: seq<Interaction>)
    | PactView(form: PactForm, view: Pact)
    | MockServerHandle(server: MockServer)

  /** The injectable kind a value is delivered as. */
  function KindOf(v: Injected): InjectableKind {
    match v
    case Interactions(_) => ListKind
    case MockServerHandle(_) => MockServerKind
    case PactView(form, _) =>
      match form
      case RequestResponseForm => RequestResponsePactKind
      case MessageForm => MessagePactKind
      case V4Form => V4PactKind
  }

  /** The kinds tried for an ASYNCH provider, in the order of its `when`. */
  const AsynchKinds: seq<InjectableKind> := [ListKind, V4PactKind, MessagePactKind]

  /** The kinds tried for any other provider, in the order of its `when`. */
  const SynchKinds: seq<InjectableKind> := [MockServerKind, RequestResponsePactKind, V4PactKind]

  /** The kinds tried for a provider: ASYNCH ones, or the rest (an unset type included). */
  function KindsFor(info: ProviderInfo): seq<InjectableKind> {
    if info.providerType == Some(Asynch) then AsynchKinds else SynchKinds
  }

  /** The first of `kinds` that the parameter accepts. */
  function FirstAccepted(kinds: seq<InjectableKind>, accepts: set<InjectableKind>): (r: Option<InjectableKind>)
    ensures r.Some? ==> r.value in accepts
    ensures r.Some? ==> exists i :: 0 <= i < |kinds| && kinds[i] == r.value
                                    && forall j :: 0 <= j < i ==> kinds[j] !in accepts
    ensures r.None? <==> forall i :: 0 <= i < |kinds| ==> kinds[i] !in accepts
    decreases |kinds|
  {
    if |kinds| == 0 then None
    else if kinds[0] in accepts then Some(kinds[0])
    else
      var r := FirstAccepted(kinds[1..], accepts);
      assert forall i :: 1 <= i < |kinds| ==> kinds[i] == kinds[1..][i - 1];
      if r.Some? then
        ghost var i :| 0 <= i < |kinds[1..]| && kinds[1..][i] == r.value
                      && forall j :: 0 <= j < i ==> kinds[1..][j] !in accepts;
        assert kinds[i + 1] == r.value;
        r
      else r
  }

  /** The kind `resolveParameterForProvider` delivers for a provider: the first branch of the
      provider type's `when` the parameter type is assignable from, or none. */
  function ChosenKind(info: ProviderInfo, accepts: set<InjectableKind>): Option<InjectableKind> {
    FirstAccepted(KindsFor(info), accepts)
  }

  /** A search over `kinds` succeeds exactly when the parameter accepts a kind of the set they
      list. */
  lemma KindsAccepted(kinds: seq<InjectableKind>, listed: set<InjectableKind>,
                      accepts: set<InjectableKind>)
    requires forall k :: k in listed <==> k in kinds
    ensures FirstAccepted(kinds, accepts).Some? <==> accepts * listed != {}
  {
    var r := FirstAccepted(kinds, accepts);
    if accepts * listed != {} {
      var k :| k in accepts * listed;
      var i :| 0 <= i < |kinds| && kinds[i] == k;
      assert kinds[i] in accepts;
    }
    if r.Some? {
      var i :| 0 <= i < |kinds| && kinds[i] == r.value && forall j :: 0 <= j < i ==> kinds[j] !in accepts;
      assert r.value in accepts * listed;
    }
  }

  /** The first-accepted search over the branches of a `when` succeeds exactly when the
      parameter accepts one of the kinds it lists. */
  lemma SupportedKinds(accepts: set<InjectableKind>)
    ensures FirstAccepted(AsynchKinds, accepts).Some? <==>
              accepts * {ListKind, V4PactKind, MessagePactKind} != {}
    ensures FirstAccepted(SynchKinds, accepts).Some? <==>
              accepts * {MockServerKind, RequestResponsePactKind, V4PactKind} != {}
  {
    KindsAccepted(AsynchKinds, {ListKind, V4PactKind, MessagePactKind}, accepts);
    KindsAccepted(SynchKinds, {MockServerKind, RequestResponsePactKind, V4PactKind}, accepts);
  }

  /** Whether any provider of `ts` is ASYNCH. */
  predicate AnyAsynch(ts: seq<Target>) {
    exists i :: 0 <= i < |ts| && ts[i].info.providerType == Some(Asynch)
  }

  /** `supportsParameter`: with any ASYNCH provider, the parameter must accept a list, a V4 pact
      or a message pact; otherwise, with any provider at all, a mock server, a request/response
      pact or a V4 pact; with no provider nothing is supported. Resolving the providers caches
      them as a lookup does. */
  function SupportsParameter(env: Collaborators, ctx: Context, s: Store, p: Parameter): (st: Step<bool>)
    ensures st.store == LookupProviderInfo(env, ctx, s).store
    ensures st.result.Ok? <==> LookupProviderInfo(env, ctx, s).result.Ok?
    ensures st.result.Ok? ==>
              var ts := LookupProviderInfo(env, ctx, s).result.value;
              && (AnyAsynch(ts) ==>
                    (st.result.value <==> p.accepts * {ListKind, V4PactKind, MessagePactKind} != {}))
              && (!AnyAsynch(ts) ==>
                    (st.result.value <==>
                       |ts| > 0 && p.accepts * {MockServerKind, RequestResponsePactKind, V4PactKind} != {}))
  {
    var resolved := LookupProviderInfo(env, ctx, s);
    match resolved.result
    case Err(e) => Step(resolved.store, Err(e))
    case Ok(ts) =>
      var supported :=
        if AnyAsynch(ts) then FirstAccepted(AsynchKinds, p.accepts).Some?
        else if exists i :: 0 <= i < |ts| && ts[i].info.providerType != Some(Asynch)
        then FirstAccepted(SynchKinds, p.accepts).Some?
        else false;
      assert |ts| > 0 && !AnyAsynch(ts) ==> ts[0].info.providerType != Some(Asynch);
      SupportedKinds(p.accepts);
      Step(resolved.store, Ok(supported))
  }

  /** `resolveParameterForProvider`: the provider's pact is looked up first; then the first
      kind of the provider type's `when` that the parameter accepts is delivered: the pact's
      interactions, a typed view of the pact (which fails when the pact cannot be viewed so),
      or the provider's mock server. A parameter accepting none of them cannot be injected. */
  function ResolveParameterForProvider(env: Collaborators, ctx: Context, s: Store, t: Target,
                                       p: Parameter): (st: Step<Injected>)
    // A failed lookup is passed on.
    ensures LookupPact(env, ctx, s, t.info, t.pactMethod).result.Err? ==>
              st == Step(s, Err(LookupPact(env, ctx, s, t.info, t.pactMethod).result.error))
    // What is delivered is the chosen kind, which the parameter accepts.
    ensures st.result.Ok? ==> Some(KindOf(st.result.value)) == ChosenKind(t.info, p.accepts)
    ensures st.result.Ok? ==> KindOf(st.result.value) in p.accepts
    // The failures this can raise.
    ensures st.result.Err? ==>
              || st.result.error.NoPactMethod? || st.result.error.SignatureMismatch?
              || st.result.error.InvocationFailed? || st.result.error == CannotInject(p.index) || st.result.error.ConversionFailed?
    ensures ResolveFrame(ctx.cls, s, st.store)
  {
    var looked := LookupPact(env, ctx, s, t.info, t.pactMethod);
    match looked.result
    case Err(e) => Step(looked.store, Err(e))
    case Ok(pact) =>
      var delivered := Deliver(env, ctx, looked.store, t, p, pact);
      StartFrameTransitive(ctx.cls, s, looked.store, delivered.store);
      delivered
  }

  /** The second half of `resolveParameterForProvider`: the found pact, or what it yields,
      delivered as the first kind of the provider type's `when` that the parameter accepts. */
  function Deliver(env: Collaborators, ctx: Context, s: Store, t: Target, p: Parameter,
                   pact: Pact): (st: Step<Injected>)
    ensures st.result.Ok? ==> Some(KindOf(st.result.value)) == ChosenKind(t.info, p.accepts)
    ensures st.result.Err? ==>
              || st.result.error.NoPactMethod? || st.result.error.SignatureMismatch?
              || st.result.error.InvocationFailed? || st.result.error == CannotInject(p.index) || st.result.error.ConversionFailed?
    ensures StartFrame(ctx.cls, s, st.store) && st.store.log == s.log
  {
    match ChosenKind(t.info, p.accepts)
    case None => Step(s, Err(CannotInject(p.index)))
    case Some(ListKind) => Step(s, Ok(Interactions(pact.interactions)))
    case Some(MockServerKind) =>
      var setup := SetupMockServer(env, ctx, s, t.info, t.pactMethod);
      (match setup.result
       case Err(e) => Step(setup.store, Err(e))
       case Ok(server) => Step(setup.store, Ok(MockServerHandle(server))))
    case Some(V4PactKind) => View(env, s, pact, V4Form)
    case Some(MessagePactKind) => View(env, s, pact, MessageForm)
    case Some(RequestResponsePactKind) => View(env, s, pact, RequestResponseForm)
  }

  /** The value `resolveParameterForProvider` injects once the provider's pact is found, by the
      kind chosen: the pact's interactions; the provider's mock server, which is the stored
      one when there is one and otherwise a new server for the stored pact; or a typed view of
      the pact, whose failure raises the conversion error. A parameter accepting no kind of its
      provider type's `when` raises the injection error. */
  lemma InjectedValue(env: Collaborators, ctx: Context, s: Store, t: Target, p: Parameter)
    requires LookupPact(env, ctx, s, t.info, t.pactMethod).result.Ok?
    ensures var st := ResolveParameterForProvider(env, ctx, s, t, p);
            var pact := LookupPact(env, ctx, s, t.info, t.pactMethod).result.value;
            var looked := LookupPact(env, ctx, s, t.info, t.pactMethod).store;
            match ChosenKind(t.info, p.accepts)
            case None => st == Step(looked, Err(CannotInject(p.index)))
            case Some(ListKind) => st == Step(looked, Ok(Interactions(pact.interactions)))
            case Some(MockServerKind) =>
              && (st.result.Ok? ==>
                    && t.info.providerName in st.store.mockServers
                    && st.result.value == MockServerHandle(st.store.mockServers[t.info.providerName]))
              && (t.info.providerName !in looked.mockServers && st.result.Ok? ==>
                    && t.info.providerName in st.store.pacts
                    && st.result.value.server == MockServer(st.store.pacts[t.info.providerName],
                                                            env.mockServerConfig(t.info)))
              && (t.info.providerName in looked.mockServers ==>
                    st == Step(looked, Ok(MockServerHandle(looked.mockServers[t.info.providerName]))))
            case Some(k) =>
              var form := if k == V4PactKind then V4Form
                          else if k == MessagePactKind then MessageForm
                          else RequestResponseForm;
              && (env.viewAs(pact, form).None? ==> st == Step(looked, Err(ConversionFailed(form))))
              && (env.viewAs(pact, form).Some? ==>
                    st == Step(looked, Ok(PactView(form, env.viewAs(pact, form).value))))
  {
  }

  /** `asXxxPact().unwrap()`: the typed view, or the failure of `unwrap` on an error. */
  function View(env: Collaborators, s: Store, pact: Pact, form: PactForm): (st: Step<Injected>)
    ensures st.store == s
    ensures st.result.Ok? <==> env.viewAs(pact, form).Some?
    ensures st.result.Ok? ==> st.result.value == PactView(form, env.viewAs(pact, form).value)
    ensures st.result.Err? ==> st.result.error == ConversionFailed(form)
  {
    match env.viewAs(pact, form)
    case None => Step(s, Err(ConversionFailed(form)))
    case Some(v) => Step(s, Ok(PactView(form, v)))
  }

  /** `providers.find { it.providerName == name }`: the index of the first provider so named. */
  function FindProvider(ts: seq<Target>, name: string): (r: Option<nat>)
    ensures r.Some? ==> r.value < |ts| && ts[r.value].info.providerName == name
    ensures r.Some? ==> forall j :: 0 <= j < r.value ==> ts[j].info.providerName != name
    ensures r.None? <==> forall j :: 0 <= j < |ts| ==> ts[j].info.providerName != name
    decreases |ts|
  {
    if |ts| == 0 then None
    else if ts[0].info.providerName == name then Some(0)
    else
      match FindProvider(ts[1..], name)
      case None => None
      case Some(i) => Some(i + 1)
  }

  /** What resolving a parameter may change: the pact and server maps, the cached providers
      and the executed set, the latter by declared methods only; servers keep their pacts, and
      the aggregation map and the log are untouched. */
  ghost predicate ResolveFrame(cls: TestClass, s: Store, s2: Store) {
    && s2.pactsToWrite == s.pactsToWrite
    && s2.log == s.log
    && s.executed <= s2.executed <= s.executed + Declared(cls)
    && (ServersHavePacts(s) ==> ServersHavePacts(s2))
  }

  /** The `@ForProvider` branch of `resolveParameter`: the first provider of the given name,
      or the failure to find one. Between them the two cases determine the outcome. */
  function ResolveNamed(env: Collaborators, ctx: Context, s: Store, ts: seq<Target>, name: string,
                        p: Parameter): (st: Step<Injected>)
    ensures (forall j :: 0 <= j < |ts| ==> ts[j].info.providerName != name)
              ==> st == Step(s, Err(ProviderNotFound(name, p.index)))
    ensures ResolveFrame(ctx.cls, s, st.store)
  {
    match FindProvider(ts, name)
    case Some(k) => ResolveParameterForProvider(env, ctx, s, ts[k], p)
    case None => Step(s, Err(ProviderNotFound(name, p.index)))
  }

  /** The search finds the first provider so named, when there is one. */
  lemma FindProviderFirst(ts: seq<Target>, name: string, k: nat)
    requires k < |ts| && ts[k].info.providerName == name
    requires forall j :: 0 <= j < k ==> ts[j].info.providerName != name
    ensures FindProvider(ts, name) == Some(k)
  {
  }

  /** A parameter naming a provider that is present is resolved for the first provider of
      that name. */
  lemma ResolveNamedFirst(env: Collaborators, ctx: Context, s: Store, ts: seq<Target>, name: string,
                          p: Parameter, k: nat)
    requires k < |ts| && ts[k].info.providerName == name
    requires forall j :: 0 <= j < k ==> ts[j].info.providerName != name
    ensures ResolveNamed(env, ctx, s, ts, name, p) == ResolveParameterForProvider(env, ctx, s, ts[k], p)
  {
    FindProviderFirst(ts, name, k);
  }

  /** The `when` of `resolveParameter` over the resolved providers `ts`: a single provider is
      the one the parameter is for, annotated or not; otherwise the parameter must name its
      provider with `@ForProvider`; with no annotation it is ambiguous. */
  function ResolveAmong(env: Collaborators, ctx: Context, s: Store, ts: seq<Target>, p: Parameter)
    : (st: Step<Injected>)
    ensures |ts| == 1 ==> st == ResolveParameterForProvider(env, ctx, s, ts[0], p)
    ensures |ts| != 1 && p.forProvider.Some? ==> st == ResolveNamed(env, ctx, s, ts, p.forProvider.value, p)
    ensures |ts| != 1 && p.forProvider.None? ==> st == Step(s, Err(AmbiguousProvider(p.index)))
    ensures ResolveFrame(ctx.cls, s, st.store)
  {
    if |ts| == 1 then ResolveParameterForProvider(env, ctx, s, ts[0], p)
    else if p.forProvider.Some? then ResolveNamed(env, ctx, s, ts, p.forProvider.value, p)
    else Step(s, Err(AmbiguousProvider(p.index)))
  }

  /** `resolveParameter`: the providers are resolved (and cached), then the parameter is
      matched to one of them. */
  function ResolveParameter(env: Collaborators, ctx: Context, s: Store, p: Parameter): (st: Step<Injected>)
    ensures LookupProviderInfo(env, ctx, s).result.Err? ==>
              st == Step(s, Err(LookupProviderInfo(env, ctx, s).result.error))
    ensures LookupProviderInfo(env, ctx, s).result.Ok? ==>
              st == ResolveAmong(env, ctx, LookupProviderInfo(env, ctx, s).store,
                                 LookupProviderInfo(env, ctx, s).result.value, p)
    ensures ResolveFrame(ctx.cls, s, st.store)
  {
    var resolved := LookupProviderInfo(env, ctx, s);
    match resolved.result
    case Err(e) => Step(resolved.store, Err(e))
    case Ok(ts) => ResolveAmong(env, ctx, resolved.store, ts, p)
  }

  /** With a single provider, the parameter is supported exactly when its provider type's
      `when` has a kind it accepts. */
  lemma SingleProviderSupport(env: Collaborators, ctx: Context, s: Store, p: Parameter)
    requires LookupProviderInfo(env, ctx, s).result.Ok?
    requires |LookupProviderInfo(env, ctx, s).result.value| == 1
    ensures var t := LookupProviderInfo(env, ctx, s).result.value[0];
            SupportsParameter(env, ctx, s, p).result == Ok(ChosenKind(t.info, p.accepts).Some?)
  {
    var ts := LookupProviderInfo(env, ctx, s).result.value;
    SupportedKinds(p.accepts);
    if ts[0].info.providerType == Some(Asynch) {
      assert AnyAsynch(ts);
    } else {
      assert !AnyAsynch(ts);
    }
  }

  /** With a single provider, `supportsParameter` and resolution agree: once the provider's
      pact is found, resolution fails for want of an injectable kind exactly when the
      parameter is unsupported. */
  lemma SingleProviderSupportAgrees(env: Collaborators, ctx: Context, s: Store, p: Parameter)
    requires LookupProviderInfo(env, ctx, s).result.Ok?
    requires |LookupProviderInfo(env, ctx, s).result.value| == 1
    ensures var resolved := LookupProviderInfo(env, ctx, s).store;
            var t := LookupProviderInfo(env, ctx, s).result.value[0];
            LookupPact(env, ctx, resolved, t.info, t.pactMethod).result.Ok? ==>
              (ResolveParameter(env, ctx, s, p).result == Err(CannotInject(p.index))
               <==> SupportsParameter(env, ctx, s, p).result == Ok(false))
  {
    var resolved := LookupProviderInfo(env, ctx, s).store;
    var t := LookupProviderInfo(env, ctx, s).result.value[0];
    SingleProviderSupport(env, ctx, s, p);
    if LookupPact(env, ctx, resolved, t.info, t.pactMethod).result.Ok? {
      InjectedValue(env, ctx, resolved, t, p);
    }
  }

  /** With an ASYNCH provider among several, a mock-server parameter is reported unsupported even
      when `@ForProvider` names a non-ASYNCH provider, although resolving it would deliver that
      provider's server: support is decided over all providers, resolution over the named one. */
  lemma MixedProvidersRejectServerParameter(env: Collaborators, ctx: Context, s: Store, p: Parameter, k: nat)
    requires LookupProviderInfo(env, ctx, s).result.Ok?
    requires var ts := LookupProviderInfo(env, ctx, s).result.value;
             && AnyAsynch(ts) && |ts| > 1 && k < |ts|
             && ts[k].info.providerType != Some(Asynch)
             && p.accepts == {MockServerKind} && p.forProvider == Some(ts[k].info.providerName)
             && forall j :: 0 <= j < k ==> ts[j].info.providerName != ts[k].info.providerName
    requires var resolved := LookupProviderInfo(env, ctx, s).store;
             var t := LookupProviderInfo(env, ctx, s).result.value[k];
             LookupPact(env, ctx, resolved, t.info, t.pactMethod).result.Ok?
    ensures SupportsParameter(env, ctx, s, p).result == Ok(false)
    ensures ResolveParameter(env, ctx, s, p).result.Ok?
    ensures ResolveParameter(env, ctx, s, p).result.value.MockServerHandle?
  {
    var resolved := LookupProviderInfo(env, ctx, s).store;
    var ts := LookupProviderInfo(env, ctx, s).result.value;
    var t := ts[k];
    SupportedKinds(p.accepts);
    assert ChosenKind(t.info, p.accepts) == Some(MockServerKind) by {
      assert SynchKinds[0] in p.accepts;
    }
    var looked := LookupPact(env, ctx, resolved, t.info, t.pactMethod);
    assert t.info.providerName in looked.store.pacts;
    InjectedValue(env, ctx, resolved, t, p);
    ResolveNamedFirst(env, ctx, resolved, ts, t.info.providerName, p, k);
  }

  /** A mock-server parameter resolved after `beforeTestExecution` receives the server that hook
      started for its provider, and resolving it changes nothing. */
  lemma InjectedServerIsStarted(env: Collaborators, ctx: Context, s: Store, p: Parameter, k: nat)
    requires ServersHavePacts(s)
    requires BeforeTestExecution(env, ctx, s).result.Ok?
    requires var ts := BeforeTestExecution(env, ctx, s).store.providers.value;
             k < |ts| && ts[k].info.providerType != Some(Asynch)
    requires MockServerKind in p.accepts
    ensures var s1 := BeforeTestExecution(env, ctx, s).store;
            var t := s1.providers.value[k];
            && t.info.providerName in s1.mockServers
            && ResolveParameterForProvider(env, ctx, s1, t, p)
                 == Step(s1, Ok(MockServerHandle(s1.mockServers[t.info.providerName])))
  {
    var s1 := BeforeTestExecution(env, ctx, s).store;
    var t := s1.providers.value[k];
    ServedNamesHas(s1.providers.value, k);
    assert t.info.providerName in s1.pacts;
    assert ChosenKind(t.info, p.accepts) == Some(MockServerKind) by {
      assert SynchKinds[0] in p.accepts;
    }
    InjectedValue(env, ctx, s1, t, p);
  }
}

=== FILE: providers.dfy ===
/** Resolving the providers a test runs against (`lookupProviderInfo`,
    `providerNameFromPactMethod`): the class and method `@PactTestFor` annotations are merged
    and, when `pactMethods` is given, expanded into one provider per named `@Pact` method. */
module ProviderResolution {
  import opened Wrappers
  import opened PactTypes
  import opened Selection

  /** `providerNameFromPactMethod`: the raw `provider` attribute of the method selected by name
      (without provider), or the `NullPointerException` of `method!!` when there is none. */
  function ProviderNameFromPactMethod(env: Collaborators, methods: seq<PactMethod>,
                                      methodName: string): (r: Result<string, PactError>)
    ensures r.Ok? <==> SelectPactMethod(env.parse, methods, None, methodName).Some?
    ensures r.Err? ==> r.error == PactMethodNotFound(methodName)
    ensures r.Ok? ==> exists i :: 0 <= i < |methods| && methods[i].provider == r.value
                                  && Eligible(env.parse, methods[i], None, methodName)
                                  && forall j :: 0 <= j < i ==> !Eligible(env.parse, methods[j], None, methodName)
  {
    match SelectPactMethod(env.parse, methods, None, methodName)
    case None => Err(PactMethodNotFound(methodName))
    case Some(i) => Ok(methods[i].provider)
  }

  /** One target per listed method name, in list order, each a copy of `base` renamed to the
      provider declared by that method. */
  function Expand(env: Collaborators, methods: seq<PactMethod>, base: ProviderInfo,
                  names: seq<string>): (r: Result<seq<Target>, PactError>)
    ensures r.Ok? <==> forall k :: 0 <= k < |names| ==>
                         ProviderNameFromPactMethod(env, methods, names[k]).Ok?
    ensures r.Ok? ==> |r.value| == |names|
    ensures r.Err? ==> r.error.PactMethodNotFound?
    ensures r.Ok? ==> forall k :: 0 <= k < |names| ==>
              r.value[k] == Target(base.(providerName :=
                  ProviderNameFromPactMethod(env, methods, names[k]).value), names[k])
    decreases |names|
  {
    if |names| == 0 then Ok([])
    else
      var head := ProviderNameFromPactMethod(env, methods, names[0]);
      if head.Err? then Err(head.error)
      else
        var tail := Expand(env, methods, base, names[1..]);
        TailIndices(names);
        if tail.Err? then Err(tail.error)
        else Ok([Target(base.(providerName := head.value), names[0])] + tail.value)
  }

  /** A failed expansion names the first listed method name that matches no method: every
      earlier name resolves to a provider. */
  lemma {:induction false} ExpandFailure(env: Collaborators, methods: seq<PactMethod>, base: ProviderInfo,
                                         names: seq<string>)
    requires Expand(env, methods, base, names).Err?
    ensures exists k :: 0 <= k < |names|
              && Expand(env, methods, base, names).error == PactMethodNotFound(names[k])
              && ProviderNameFromPactMethod(env, methods, names[k]).Err?
              && forall j :: 0 <= j < k ==> ProviderNameFromPactMethod(env, methods, names[j]).Ok?
    decreases |names|
  {
    var head := ProviderNameFromPactMethod(env, methods, names[0]);
    if head.Ok? {
      var tail := names[1..];
      ExpandFailure(env, methods, base, tail);
      assert Expand(env, methods, base, names).error == Expand(env, methods, base, tail).error;
      var k :| 0 <= k < |tail|
               && Expand(env, methods, base, tail).error == PactMethodNotFound(tail[k])
               && ProviderNameFromPactMethod(env, methods, tail[k]).Err?
               && forall j :: 0 <= j < k ==> ProviderNameFromPactMethod(env, methods, tail[j]).Ok?;
      assert tail[k] == names[k + 1];
      forall j | 0 <= j < k + 1
        ensures ProviderNameFromPactMethod(env, methods, names[j]).Ok?
      {
        if j > 0 {
          assert names[j] == tail[j - 1];
        }
      }
    }
  }

  /** The positions of a list's tail are those of the list, shifted by one. */
  lemma TailIndices(names: seq<string>)
    requires |names| > 0
    ensures forall k :: 1 <= k < |names| ==> names[k] == names[1..][k - 1]
  {
  }

  /** `when` in `lookupProviderInfo`: the providers for the test, from the class annotation
      `c` and the method annotation `m`. The list is never empty, and the only failure is a
      listed `@Pact` method name that matches no method. */
  function Resolve(env: Collaborators, methods: seq<PactMethod>,
                   c: Option<PactTestFor>, m: Option<PactTestFor>): (r: Result<seq<Target>, PactError>)
    ensures r.Ok? ==> |r.value| > 0
    ensures r.Err? ==> r.error.PactMethodNotFound?
  {
    match (c, m)
    case (Some(ca), Some(ma)) =>
      var provider := env.mergeInfo(env.fromAnnotation(ma), env.fromAnnotation(ca));
      if |ma.pactMethods| > 0 then Expand(env, methods, provider, ma.pactMethods)
      else if |ca.pactMethods| > 0 then Expand(env, methods, provider, ca.pactMethods)
      else Ok([Target(provider, IfEmpty(ma.pactMethod, ca.pactMethod))])
    case (Some(a), None) => Single(env, methods, a)
    case (None, Some(a)) => Single(env, methods, a)
    case (None, None) => Ok([Target(DefaultProviderInfo, "")])
  }

  /** One annotation present: expand its `pactMethods`, or use it with its `pactMethod`. */
  function Single(env: Collaborators, methods: seq<PactMethod>, a: PactTestFor)
    : (r: Result<seq<Target>, PactError>)
    ensures r.Ok? ==> |r.value| > 0
    ensures r.Err? ==> |a.pactMethods| > 0 && r.error.PactMethodNotFound?
  {
    if |a.pactMethods| > 0 then Expand(env, methods, env.fromAnnotation(a), a.pactMethods)
    else Ok([Target(env.fromAnnotation(a), a.pactMethod)])
  }

  /** `lookupProviderInfo`: the cached list under "providers", or the resolved list, which is
      then cached. */
  function LookupProviderInfo(env: Collaborators, ctx: Context, s: Store): (st: Step<seq<Target>>)
    ensures s.providers.Some? ==> st == Step(s, Ok(s.providers.value))
    ensures st.result.Ok? ==> st.store == s.(providers := Some(st.result.value))
    ensures st.result.Err? ==> st.store == s
    ensures st.result.Ok? ==> |st.result.value| > 0 || s.providers == Some([])
    // Uncached, the list is the one the annotations resolve to, and a failure is theirs.
    ensures s.providers.None? ==>
              var r := Resolve(env, ctx.cls.pactMethods, ctx.cls.annotation, ctx.test.annotation);
              && (st.result.Ok? <==> r.Ok?)
              && (r.Ok? ==> st.result.value == r.value)
              && (r.Err? ==> st.result.error == r.error)
  {
    if s.providers.Some? then Step(s, Ok(s.providers.value))
    else
      match Resolve(env, ctx.cls.pactMethods, ctx.cls.annotation, ctx.test.annotation)
      case Err(e) => Step(s, Err(e))
      case Ok(ps) => Step(s.(providers := Some(ps)), Ok(ps))
  }

  /** With neither annotation, resolution yields the single default provider with no method. */
  lemma NoAnnotationsGiveDefault(env: Collaborators, methods: seq<PactMethod>)
    ensures Resolve(env, methods, None, None) == Ok([Target(ProviderInfo("", None, None,
                                                     EndpointSettings("", "", false)), "")])
  {
  }

  /** A second lookup returns the list the first produced and changes nothing. */
  lemma LookupProviderInfoCached(env: Collaborators, ctx: Context, s: Store)
    requires LookupProviderInfo(env, ctx, s).result.Ok?
    ensures var st := LookupProviderInfo(env, ctx, s);
            LookupProviderInfo(env, ctx, st.store) == st
  {
  }

  /** The configuration every target shares: the merge of method over class when both
      annotations are present, otherwise the one present. */
  function Base(env: Collaborators, c: Option<PactTestFor>, m: Option<PactTestFor>): ProviderInfo
    requires c.Some? || m.Some?
  {
    if c.Some? && m.Some? then env.mergeInfo(env.fromAnnotation(m.value), env.fromAnnotation(c.value))
    else if m.Some? then env.fromAnnotation(m.value)
    else env.fromAnnotation(c.value)
  }

  /** When the list driving expansion is non-empty, resolution yields one target per listed
      name, in order; each target's provider name is the raw `@Pact.provider` of the method that
      name selects (the first method so named, or the first method at all for an empty name),
      and apart from its name it carries the shared configuration. With both annotations the
      method's list wins over the class's. */
  lemma PactMethodsExpansion(env: Collaborators, methods: seq<PactMethod>,
                             c: Option<PactTestFor>, m: Option<PactTestFor>, names: seq<string>)
    requires |names| > 0
    requires (m.Some? && m.value.pactMethods == names)
          || (m.None? && c.Some? && c.value.pactMethods == names)
          || (m.Some? && |m.value.pactMethods| == 0 && c.Some? && c.value.pactMethods == names)
    requires Resolve(env, methods, c, m).Ok?
    ensures var r := Resolve(env, methods, c, m).value;
            && |r| == |names|
            && forall k :: 0 <= k < |names| ==>
                 && r[k].pactMethod == names[k]
                 && r[k].info == Base(env, c, m).(providerName := r[k].info.providerName)
                 && (exists i :: 0 <= i < |methods|
                                 && methods[i].provider == r[k].info.providerName
                                 && (names[k] != "" ==> methods[i].name == names[k])
                                 && (names[k] == "" ==> i == 0)
                                 && forall j :: 0 <= j < i ==> methods[j].name != names[k])
  {
    var r := Resolve(env, methods, c, m).value;
    assert Resolve(env, methods, c, m) == Expand(env, methods, Base(env, c, m), names);
    forall k | 0 <= k < |names|
      ensures exists i :: 0 <= i < |methods|
                          && methods[i].provider == r[k].info.providerName
                          && (names[k] != "" ==> methods[i].name == names[k])
                          && (names[k] == "" ==> i == 0)
                          && forall j :: 0 <= j < i ==> methods[j].name != names[k]
    {
      assert ProviderNameFromPactMethod(env, methods, names[k]).Ok?;
      var i := SelectPactMethod(env.parse, methods, None, names[k]).value;
      if names[k] != "" {
        SelectByName(env.parse, methods, None, names[k]);
      }
      assert methods[i].provider == r[k].info.providerName;
    }
  }

  /** Only one annotation present, without `pactMethods`: a single target with that
      annotation's configuration and its `pactMethod`, whichever of class or method carries it. */
  lemma SingleWithoutPactMethods(env: Collaborators, methods: seq<PactMethod>, a: PactTestFor)
    requires |a.pactMethods| == 0
    ensures Resolve(env, methods, Some(a), None) == Ok([Target(env.fromAnnotation(a), a.pactMethod)])
    ensures Resolve(env, methods, None, Some(a)) == Ok([Target(env.fromAnnotation(a), a.pactMethod)])
  {
  }

  /** Both annotations present and neither lists `pactMethods`: a single target with the merged
      configuration and the method's `pactMethod`, falling back to the class's. */
  lemma BothWithoutPactMethods(env: Collaborators, methods: seq<PactMethod>,
                               ca: PactTestFor, ma: PactTestFor)
    requires |ca.pactMethods| == 0 && |ma.pactMethods| == 0
    ensures var r := Resolve(env, methods, Some(ca), Some(ma));
            && r.Ok? && |r.value| == 1
            && r.value[0].info == env.mergeInfo(env.fromAnnotation(ma), env.fromAnnotation(ca))
            && (ma.pactMethod != "" ==> r.value[0].pactMethod == ma.pactMethod)
            && (ma.pactMethod == "" ==> r.value[0].pactMethod == ca.pactMethod)
  {
  }
}

=== FILE: run.dfy ===
/** One test method and one test class as the extension takes part in them: the test's own
    store scope is opened empty, `beforeTestExecution` starts the servers, the parameters the
    extension supports are resolved, `afterTestExecution` forwards the pacts, and closing the
    scope stops the servers it holds (`JUnit5MockServerSupport.close`). After the last test,
    `afterAll` writes the pacts and checks coverage. */
module TestRun {
  import opened Wrappers
  import opened PactTypes
  import opened ProviderResolution
  import opened Aggregation
  import opened MockServerLifecycle
  import opened ParameterDispatch
  import opened Teardown

  /** The test method's store scope when the test starts: nothing resolved, built or started. */
  function OpenTestScope(s: Store): (r: Store)
    ensures r.providers.None? && r.pacts == map[] && r.mockServerConfigs == map[] && r.mockServers == map[]
    ensures r.executed == s.executed && r.pactsToWrite == s.pactsToWrite && r.log == s.log
  {
    s.(providers := None, pacts := map[], mockServerConfigs := map[], mockServers := map[])
  }

  /** Closing the test method's store scope: every server stored in it is stopped, and its
      entries are gone; the class store is untouched. */
  function CloseTestScope(s: Store): (r: Store)
    ensures r.providers.None? && r.pacts == map[] && r.mockServerConfigs == map[] && r.mockServers == map[]
    ensures r.executed == s.executed && r.pactsToWrite == s.pactsToWrite
    ensures r.log == s.log + [ScopeClosed(s.mockServers.Keys)]
  {
    OpenTestScope(s).(log := s.log + [ScopeClosed(s.mockServers.Keys)])
  }

  /** The parameters of the test method, in order: each one the extension supports is
      resolved by it; the others are left to other resolvers. The first failure ends the
      resolution. */
  function ResolveAll(env: Collaborators, ctx: Context, s: Store, params: seq<Parameter>)
    : (st: Step<seq<Injected>>)
    ensures st.result.Ok? ==> |st.result.value| <= |params|
    ensures ResolveFrame(ctx.cls, s, st.store)
    decreases |params|
  {
    if |params| == 0 then Step(s, Ok([]))
    else
      var supported := SupportsParameter(env, ctx, s, params[0]);
      match supported.result
      case Err(e) => Step(supported.store, Err(e))
      case Ok(false) => ResolveAll(env, ctx, supported.store, params[1..])
      case Ok(true) =>
        var resolved := ResolveParameter(env, ctx, supported.store, params[0]);
        match resolved.result
        case Err(e) => Step(resolved.store, Err(e))
        case Ok(v) =>
          var rest := ResolveAll(env, ctx, resolved.store, params[1..]);
          if rest.result.Err? then rest else Step(rest.store, Ok([v] + rest.result.value))
  }

  /** One test method: its context, its parameters, whether its body raises, and the verdict
      each provider's mock server gives on its interactions. */
  datatype TestPlan = TestPlan(
    test: TestMethod,
    params: seq<Parameter>,
    bodyRaises: bool,
    verdict: string -> Verification)

  /** A test method run between the class hooks. A failing `beforeTestExecution` or parameter
      resolution means the body never runs and the test counts as raised, so
      `afterTestExecution` does nothing; the scope is closed in every case. The result is the
      first exception the extension raised. */
  function RunTest(env: Collaborators, cls: TestClass, s: Store, plan: TestPlan): (st: Step<()>)
    ensures st.store.providers.None? && st.store.mockServers == map[]
    ensures s.executed <= st.store.executed <= s.executed + Declared(cls)
    ensures VersionsKept(s.pactsToWrite, st.store.pactsToWrite)
    ensures plan.bodyRaises ==> st.store.pactsToWrite == s.pactsToWrite
  {
    var ctx := Context(cls, plan.test);
    var before := BeforeTestExecution(env, ctx, OpenTestScope(s));
    match before.result
    case Err(e) => Step(CloseTestScope(before.store), Err(e))
    case Ok(_) =>
      var injected := ResolveAll(env, ctx, before.store, plan.params);
      match injected.result
      case Err(e) => Step(CloseTestScope(injected.store), Err(e))
      case Ok(_) =>
        var after := AfterTestExecution(env, injected.store, plan.bodyRaises, plan.verdict);
        Step(CloseTestScope(after.store), after.result)
  }

  /** The tests of a class, in execution order, each starting from the store the previous one
      left. */
  function RunTests(env: Collaborators, cls: TestClass, s: Store, plans: seq<TestPlan>): Store
    decreases |plans|
  {
    if |plans| == 0 then s else RunTests(env, cls, RunTest(env, cls, s, plans[0]).store, plans[1..])
  }

  /** Across any sequence of tests, the executed set only grows and only by declared methods,
      no aggregated pact is lost, and no aggregated version decreases. */
  lemma {:induction false} RunTestsKeepClassState(env: Collaborators, cls: TestClass, s: Store,
                                                 plans: seq<TestPlan>)
    ensures s.executed <= RunTests(env, cls, s, plans).executed
    ensures ExecutedDeclared(cls, s) ==> ExecutedDeclared(cls, RunTests(env, cls, s, plans))
    ensures VersionsKept(s.pactsToWrite, RunTests(env, cls, s, plans).pactsToWrite)
    decreases |plans|
  {
    if |plans| > 0 {
      var next := RunTest(env, cls, s, plans[0]).store;
      RunTestsKeepClassState(env, cls, next, plans[1..]);
      VersionsKeptTransitive(s.pactsToWrite, next.pactsToWrite, RunTests(env, cls, next, plans[1..]).pactsToWrite);
    }
  }

  /** A test class: `beforeAll` creates the class store, the tests run in order, and `afterAll`
      writes the aggregated pacts (in the order the map visits them) and checks coverage. */
  function RunClass(env: Collaborators, cls: TestClass, plans: seq<TestPlan>, raised: bool,
                    order: seq<PactKey>, buildToolDefault: string): (st: Step<()>)
    requires Enumerates(order, RunTests(env, cls, InitialStore, plans).pactsToWrite)
    ensures st.store.executed <= Declared(cls)
  {
    RunTestsKeepClassState(env, cls, InitialStore, plans);
    AfterAll(env, cls, RunTests(env, cls, InitialStore, plans), raised, order, buildToolDefault)
  }

  /** The coverage guarantee of a test class: when its pacts are all written, the class fails
      exactly when one of its declared `@Pact` methods that is not disabled was never invoked
      by any of its tests. */
  lemma ClassFailsExactlyWhenUncovered(env: Collaborators, cls: TestClass, plans: seq<TestPlan>,
                                       order: seq<PactKey>, buildToolDefault: string)
    requires Enumerates(order, RunTests(env, cls, InitialStore, plans).pactsToWrite)
    requires var agg := RunTests(env, cls, InitialStore, plans).pactsToWrite;
             forall k :: k in agg ==>
               env.writes(agg[k].pact, LookupPactDirectory(cls, buildToolDefault), agg[k].version)
    ensures var executed := RunTests(env, cls, InitialStore, plans).executed;
            RunClass(env, cls, plans, false, order, buildToolDefault).result.Err? <==>
              SomeUncovered(cls.pactMethods, executed)
  {
    RunTestsKeepClassState(env, cls, InitialStore, plans);
  }

  /** Starting servers for providers that are all ASYNCH starts nothing and changes nothing. */
  lemma {:induction false} StartServersAllAsynch(env: Collaborators, ctx: Context, s: Store, ts: seq<Target>)
    requires forall k :: 0 <= k < |ts| ==> ts[k].info.providerType == Some(Asynch)
    ensures StartServers(env, ctx, s, ts) == Step(s, Ok(()))
    decreases |ts|
  {
    if |ts| > 0 {
      assert ts[1..] == ts[1..] && forall k :: 1 <= k < |ts| ==> ts[k] == ts[1..][k - 1];
      StartServersAllAsynch(env, ctx, s, ts[1..]);
    }
  }

  /** An ASYNCH pact is only built when a parameter asks for it: a test whose providers are all
      ASYNCH and which takes no parameter raises, after its body passes, the failed read of the
      first provider's pact. */
  lemma AsynchPactNeedsParameter(env: Collaborators, cls: TestClass, s: Store, plan: TestPlan)
    requires plan.params == [] && !plan.bodyRaises
    requires var r := Resolve(env, cls.pactMethods, cls.annotation, plan.test.annotation);
             && r.Ok? && |r.value| > 0
             && forall k :: 0 <= k < |r.value| ==> r.value[k].info.providerType == Some(Asynch)
    ensures var ts := Resolve(env, cls.pactMethods, cls.annotation, plan.test.annotation).value;
            RunTest(env, cls, s, plan).result == Err(MissingStoreEntry("pact:" + ts[0].info.providerName))
  {
    var ctx := Context(cls, plan.test);
    var open := OpenTestScope(s);
    var ts := Resolve(env, cls.pactMethods, cls.annotation, plan.test.annotation).value;
    var resolved := LookupProviderInfo(env, ctx, open).store;
    StartServersAllAsynch(env, ctx, resolved, ts);
    assert BeforeTestExecution(env, ctx, open) == Step(resolved, Ok(()));
    assert ResolveAll(env, ctx, resolved, []) == Step(resolved, Ok([]));
    assert ForwardOne(env, resolved, ts[0], plan.verdict).result
        == Err(MissingStoreEntry("pact:" + ts[0].info.providerName));
  }
}

=== FILE: selection.dfy ===
/** Choosing a `@Pact` method from the test class's registry (`pactMethodAnnotation`). */
module Selection {
  import opened Wrappers
  import opened PactTypes

  /** `parseExpression(raw)?.toString() ?: raw`: the substituted value, or the raw text when
      substitution yields nothing. */
  function ParsedOrRaw(parse: string -> Option<string>, raw: string): string {
    parse(raw).GetOr(raw)
  }

  /** The index of the first method satisfying `p` (`firstOrNull { p }`). */
  function FirstMatch(methods: seq<PactMethod>, p: PactMethod -> bool): (r: Option<nat>)
    ensures r.Some? ==> r.value < |methods| && p(methods[r.value])
    ensures r.Some? ==> forall j :: 0 <= j < r.value ==> !p(methods[j])
    ensures r.None? <==> forall j :: 0 <= j < |methods| ==> !p(methods[j])
    decreases |methods|
  {
    if |methods| == 0 then None
    else if p(methods[0]) then Some(0)
    else
      match FirstMatch(methods[1..], p)
      case None => None
      case Some(i) => Some(i + 1)
  }

  /** Whether `m` qualifies under the rule that `pactMethodAnnotation` applies for the given
      requested provider name (absent for `null`) and requested method name (possibly empty):
      a named method must match by name; with neither a name nor a provider every method
      qualifies; otherwise the method's provider, after substitution, must be empty or equal
      to the requested provider. */
  predicate Eligible(parse: string -> Option<string>, m: PactMethod,
                     providerName: Option<string>, pactMethod: string)
  {
    if pactMethod != "" then m.name == pactMethod
    else if providerName.None? || providerName.value == "" then true
    else
      var declared := ParsedOrRaw(parse, m.provider);
      declared == "" || declared == providerName.value
  }

  /** `pactMethodAnnotation(providerName, context, pactMethod)`: the index of the chosen method,
      searching by name, else taking the first, else searching by provider. */
  function SelectPactMethod(parse: string -> Option<string>, methods: seq<PactMethod>,
                            providerName: Option<string>, pactMethod: string): (r: Option<nat>)
    ensures r.Some? ==> r.value < |methods|
    ensures r.Some? ==> Eligible(parse, methods[r.value], providerName, pactMethod)
    ensures r.Some? ==> forall j :: 0 <= j < r.value ==>
                          !Eligible(parse, methods[j], providerName, pactMethod)
    ensures r.None? <==> forall j :: 0 <= j < |methods| ==>
                          !Eligible(parse, methods[j], providerName, pactMethod)
  {
    if pactMethod != "" then
      FirstMatch(methods, (m: PactMethod) => m.name == pactMethod)
    else if providerName.None? || providerName.value == "" then
      if |methods| == 0 then None else Some(0)
    else
      FirstMatch(methods, (m: PactMethod) =>
        var declared := ParsedOrRaw(parse, m.provider);
        declared == "" || declared == providerName.value)
  }

  /** A non-empty requested method name selects the first method bearing exactly that name,
      whatever provider is requested; none bearing it means no selection. */
  lemma SelectByName(parse: string -> Option<string>, methods: seq<PactMethod>,
                     providerName: Option<string>, pactMethod: string)
    requires pactMethod != ""
    ensures var r := SelectPactMethod(parse, methods, providerName, pactMethod);
            && (r.Some? ==> methods[r.value].name == pactMethod
                            && forall j :: 0 <= j < r.value ==> methods[j].name != pactMethod)
            && (r.None? <==> forall j :: 0 <= j < |methods| ==> methods[j].name != pactMethod)
  {
    var r := SelectPactMethod(parse, methods, providerName, pactMethod);
    if r.Some? {
      forall j | 0 <= j < r.value ensures methods[j].name != pactMethod {
        assert !Eligible(parse, methods[j], providerName, pactMethod);
      }
    }
    if r.None? {
      forall j | 0 <= j < |methods| ensures methods[j].name != pactMethod {
        assert !Eligible(parse, methods[j], providerName, pactMethod);
      }
    }
  }

  /** With no method name and a non-empty provider, the chosen method is the first whose
      substituted provider is empty or equal to the requested one; in particular the first
      registry entry is not taken merely for being first. */
  lemma SelectByProvider(parse: string -> Option<string>, methods: seq<PactMethod>,
                         provider: string)
    requires provider != ""
    ensures var r := SelectPactMethod(parse, methods, Some(provider), "");
            && (r.Some? ==> ParsedOrRaw(parse, methods[r.value].provider) in {"", provider}
                            && forall j :: 0 <= j < r.value ==>
                                 ParsedOrRaw(parse, methods[j].provider) !in {"", provider})
            && (r.None? <==> forall j :: 0 <= j < |methods| ==>
                               ParsedOrRaw(parse, methods[j].provider) !in {"", provider})
  {
    var r := SelectPactMethod(parse, methods, Some(provider), "");
    if r.None? {
      forall j | 0 <= j < |methods|
        ensures ParsedOrRaw(parse, methods[j].provider) !in {"", provider}
      {
        assert !Eligible(parse, methods[j], Some(provider), "");
      }
    } else {
      assert Eligible(parse, methods[r.value], Some(provider), "");
      forall j | 0 <= j < r.value
        ensures ParsedOrRaw(parse, methods[j].provider) !in {"", provider}
      {
        assert !Eligible(parse, methods[j], Some(provider), "");
      }
    }
  }
}

=== FILE: teardown.dfy ===
/** Class teardown (`afterAll`, `lookupPactDirectory`): every aggregated pact is written to the
    pact directory, then the class fails if a declared, non-disabled `@Pact` method never ran. */
module Teardown {
  import opened Wrappers
  import opened PactTypes

  /** `lookupPactDirectory`: `@PactFolder` first, then `@PactDirectory`, then the build tool's
      default directory. */
  function LookupPactDirectory(cls: TestClass, buildToolDefault: string): (dir: string)
    ensures dir == buildToolDefault || Some(dir) == cls.pactFolder || Some(dir) == cls.pactDirectory
  {
    if cls.pactFolder.Some? then cls.pactFolder.value
    else if cls.pactDirectory.Some? then cls.pactDirectory.value
    else buildToolDefault
  }

  /** `@PactFolder` beats `@PactDirectory`, which beats the default: the default is only used
      when neither annotation is present. */
  lemma DirectoryPriority(cls: TestClass, buildToolDefault: string)
    ensures cls.pactFolder.Some? ==> LookupPactDirectory(cls, buildToolDefault) == cls.pactFolder.value
    ensures cls.pactFolder.None? && cls.pactDirectory.Some? ==>
              LookupPactDirectory(cls, buildToolDefault) == cls.pactDirectory.value
    ensures cls.pactFolder.None? && cls.pactDirectory.None? ==>
              LookupPactDirectory(cls, buildToolDefault) == buildToolDefault
  {
  }

  /** `order` lists every key of `agg` exactly once: the order in which the map's values are
      visited, which the map chooses. */
  predicate Enumerates(order: seq<PactKey>, agg: map<PactKey, Aggregate>) {
    && (forall i :: 0 <= i < |order| ==> order[i] in agg)
    && (forall k :: k in agg ==> k in order)
    && (forall i, j :: 0 <= i < j < |order| ==> order[i] != order[j])
  }

  /** The write events for the keys of `order`, each at the aggregated version. */
  function WriteEvents(agg: map<PactKey, Aggregate>, dir: string, order: seq<PactKey>): seq<Event>
    requires forall i :: 0 <= i < |order| ==> order[i] in agg
  {
    seq(|order|, i requires 0 <= i < |order| => PactWritten(order[i], dir, agg[order[i]].version))
  }

  /** The `forEach` writing every aggregated pact at its version, stopping at the first write
      that throws. */
  function WriteAll(env: Collaborators, s: Store, dir: string, order: seq<PactKey>): (st: Step<()>)
    requires forall i :: 0 <= i < |order| ==> order[i] in s.pactsToWrite
    ensures st.result.Ok? <==> forall i :: 0 <= i < |order| ==>
              env.writes(s.pactsToWrite[order[i]].pact, dir, s.pactsToWrite[order[i]].version)
    ensures st.store == s.(log := st.store.log)
    decreases |order|
  {
    if |order| == 0 then Step(s, Ok(()))
    else
      var entry := s.pactsToWrite[order[0]];
      assert forall i :: 1 <= i < |order| ==> order[i] == order[1..][i - 1];
      if !env.writes(entry.pact, dir, entry.version) then Step(s, Err(WriteFailed(order[0])))
      else
        var written := s.(log := s.log + [PactWritten(order[0], dir, entry.version)]);
        WriteAll(env, written, dir, order[1..])
  }

  /** When every write succeeds, the writes log one event per aggregated pact, in visiting
      order, each naming the directory and the aggregated version. */
  lemma {:induction false} WriteAllLog(env: Collaborators, s: Store, dir: string, order: seq<PactKey>)
    requires forall i :: 0 <= i < |order| ==> order[i] in s.pactsToWrite
    requires WriteAll(env, s, dir, order).result.Ok?
    ensures WriteAll(env, s, dir, order).store.log == s.log + WriteEvents(s.pactsToWrite, dir, order)
    decreases |order|
  {
    if |order| > 0 {
      var entry := s.pactsToWrite[order[0]];
      var written := s.(log := s.log + [PactWritten(order[0], dir, entry.version)]);
      var tail := order[1..];
      WriteAllLog(env, written, dir, tail);
      assert WriteAll(env, s, dir, order) == WriteAll(env, written, dir, tail);
      assert WriteEvents(s.pactsToWrite, dir, order)
          == [PactWritten(order[0], dir, entry.version)] + WriteEvents(s.pactsToWrite, dir, tail);
    }
  }

  /** A failing write names the first entry, in visiting order, whose write failed. */
  lemma {:induction false} WriteAllFailure(env: Collaborators, s: Store, dir: string, order: seq<PactKey>)
    requires forall i :: 0 <= i < |order| ==> order[i] in s.pactsToWrite
    requires WriteAll(env, s, dir, order).result.Err?
    ensures exists j :: 0 <= j < |order|
              && WriteAll(env, s, dir, order).result.error == WriteFailed(order[j])
              && !env.writes(s.pactsToWrite[order[j]].pact, dir, s.pactsToWrite[order[j]].version)
              && forall i :: 0 <= i < j ==>
                   env.writes(s.pactsToWrite[order[i]].pact, dir, s.pactsToWrite[order[i]].version)
    decreases |order|
  {
    var entry := s.pactsToWrite[order[0]];
    if env.writes(entry.pact, dir, entry.version) {
      var written := s.(log := s.log + [PactWritten(order[0], dir, entry.version)]);
      var tail := order[1..];
      WriteAllFailure(env, written, dir, tail);
      assert WriteAll(env, s, dir, order) == WriteAll(env, written, dir, tail);
      var j :| 0 <= j < |tail|
               && WriteAll(env, written, dir, tail).result.error == WriteFailed(tail[j])
               && !env.writes(s.pactsToWrite[tail[j]].pact, dir, s.pactsToWrite[tail[j]].version)
               && forall i :: 0 <= i < j ==>
                    env.writes(s.pactsToWrite[tail[i]].pact, dir, s.pactsToWrite[tail[i]].version);
      assert tail[j] == order[j + 1];
      forall i | 0 <= i < j + 1
        ensures env.writes(s.pactsToWrite[order[i]].pact, dir, s.pactsToWrite[order[i]].version)
      {
        if i > 0 {
          assert order[i] == tail[i - 1];
        }
      }
    }
  }

  /** When the write of entry `j` fails and every earlier write succeeds, the hook fails
      naming that entry, after logging the writes of the earlier entries only: no later entry
      is attempted. */
  lemma {:induction false} WriteAllStopsAtFailure(env: Collaborators, s: Store, dir: string,
                                                  order: seq<PactKey>, j: nat)
    requires forall i :: 0 <= i < |order| ==> order[i] in s.pactsToWrite
    requires j < |order|
    requires forall i :: 0 <= i < j ==>
               env.writes(s.pactsToWrite[order[i]].pact, dir, s.pactsToWrite[order[i]].version)
    requires !env.writes(s.pactsToWrite[order[j]].pact, dir, s.pactsToWrite[order[j]].version)
    ensures WriteAll(env, s, dir, order).result == Err(WriteFailed(order[j]))
    ensures WriteAll(env, s, dir, order).store.log == s.log + WriteEvents(s.pactsToWrite, dir, order[..j])
    decreases |order|
  {
    var entry := s.pactsToWrite[order[0]];
    if j == 0 {
      assert WriteEvents(s.pactsToWrite, dir, order[..0]) == [];
    } else {
      var written := s.(log := s.log + [PactWritten(order[0], dir, entry.version)]);
      var tail := order[1..];
      assert env.writes(entry.pact, dir, entry.version);
      assert WriteAll(env, s, dir, order) == WriteAll(env, written, dir, tail);
      forall i | 0 <= i < j - 1
        ensures env.writes(s.pactsToWrite[tail[i]].pact, dir, s.pactsToWrite[tail[i]].version)
      {
        assert tail[i] == order[i + 1];
      }
      assert tail[j - 1] == order[j];
      WriteAllStopsAtFailure(env, written, dir, tail, j - 1);
      WriteEventsCons(s.pactsToWrite, dir, order, j - 1);
    }
  }

  /** The write events of the first `j + 1` keys are the first key's event followed by those
      of the next `j`. */
  lemma WriteEventsCons(agg: map<PactKey, Aggregate>, dir: string, order: seq<PactKey>, j: nat)
    requires j < |order|
    requires forall i :: 0 <= i < |order| ==> order[i] in agg
    ensures WriteEvents(agg, dir, order[..j + 1])
              == [PactWritten(order[0], dir, agg[order[0]].version)] + WriteEvents(agg, dir, order[1..][..j])
  {
    var lhs := WriteEvents(agg, dir, order[..j + 1]);
    var rhs := [PactWritten(order[0], dir, agg[order[0]].version)] + WriteEvents(agg, dir, order[1..][..j]);
    assert |lhs| == |rhs|;
    forall i | 0 <= i < |lhs|
      ensures lhs[i] == rhs[i]
    {
      if i > 0 {
        assert order[1..][..j][i - 1] == order[i];
      }
    }
  }

  /** `declaringClass.simpleName + "." + name`. */
  function QualifiedName(m: PactMethod): string {
    m.declaringClass + "." + m.name
  }

  /** `(methods - executedFragments).filter { !isAnnotated(it, Disabled) }`: the declared
      methods that never ran and are not disabled, in declaration order. */
  function Uncovered(methods: seq<PactMethod>, executed: set<PactMethod>): (r: seq<PactMethod>)
    ensures forall m :: m in r <==> m in methods && m !in executed && !m.disabled
    ensures IsSubsequence(r, methods)
    decreases |methods|
  {
    if |methods| == 0 then []
    else
      var rest := Uncovered(methods[1..], executed);
      assert forall m :: m in methods <==> m == methods[0] || m in methods[1..];
      if methods[0] !in executed && !methods[0].disabled then [methods[0]] + rest else rest
  }

  /** `r` is `s` with some elements dropped and the rest kept in order. */
  predicate IsSubsequence(r: seq<PactMethod>, s: seq<PactMethod>)
    decreases |s|
  {
    if |s| == 0 then |r| == 0
    else (|r| > 0 && r[0] == s[0] && IsSubsequence(r[1..], s[1..])) || IsSubsequence(r, s[1..])
  }

  /** `joinToString(", ") { QualifiedName(it) }`. */
  function JoinNames(ms: seq<PactMethod>): (r: string)
    ensures |ms| == 0 <==> r == ""
    ensures |ms| > 0 ==> QualifiedName(ms[0]) <= r
    ensures |ms| > 0 ==> EndsWith(r, QualifiedName(ms[|ms| - 1]))
    decreases |ms|
  {
    if |ms| == 0 then ""
    else if |ms| == 1 then QualifiedName(ms[0])
    else
      var rest := JoinNames(ms[1..]);
      assert ms[1..][|ms[1..]| - 1] == ms[|ms| - 1];
      EndsWithAfterPrefix(QualifiedName(ms[0]) + ", ", rest, QualifiedName(ms[|ms| - 1]));
      QualifiedName(ms[0]) + ", " + rest
  }

  /** `r` ends with `suffix`. */
  predicate EndsWith(r: string, suffix: string) {
    |suffix| <= |r| && r[|r| - |suffix|..] == suffix
  }

  /** Joining from the other end: appending a method to a non-empty listing adds the
      separator and its qualified name at the end, so the listing holds every qualified name,
      in order, separated by `", "`. */
  lemma {:induction false} JoinNamesAppend(ms: seq<PactMethod>, m: PactMethod)
    ensures JoinNames([m]) == QualifiedName(m)
    ensures |ms| > 0 ==> JoinNames(ms + [m]) == JoinNames(ms) + ", " + QualifiedName(m)
    decreases |ms|
  {
    if |ms| > 0 {
      var whole := ms + [m];
      assert whole[0] == ms[0] && whole[1..] == ms[1..] + [m];
      assert JoinNames(whole) == QualifiedName(ms[0]) + ", " + JoinNames(ms[1..] + [m]);
      if |ms| > 1 {
        JoinNamesAppend(ms[1..], m);
        assert JoinNames(ms) == QualifiedName(ms[0]) + ", " + JoinNames(ms[1..]);
      }
    }
  }

  /** A suffix stays a suffix when something is put in front. */
  lemma EndsWithAfterPrefix(prefix: string, r: string, suffix: string)
    requires EndsWith(r, suffix)
    ensures EndsWith(prefix + r, suffix)
  {
    assert (prefix + r)[|prefix + r| - |suffix|..] == r[|r| - |suffix|..];
  }

  /** The coverage check of `afterAll`, guarded as the source guards it by comparing the
      number of executed methods with the number of declared ones. */
  function CoverageCheck(methods: seq<PactMethod>, executed: set<PactMethod>): Result<(), PactError> {
    if |executed| < |methods| then
      var listing := JoinNames(Uncovered(methods, executed));
      if listing != "" then Err(UnexecutedPactMethods(listing)) else Ok(())
    else Ok(())
  }

  /** Some declared method that is not disabled is missing from `executed`. */
  predicate SomeUncovered(methods: seq<PactMethod>, executed: set<PactMethod>) {
    exists i :: 0 <= i < |methods| && methods[i] !in executed && !methods[i].disabled
  }

  /** A sequence has at least as many positions as distinct elements. */
  lemma {:induction false} DistinctElementsBound(ms: seq<PactMethod>)
    ensures |set m | m in ms| <= |ms|
    decreases |ms|
  {
    if |ms| > 0 {
      DistinctElementsBound(ms[1..]);
      assert (set m | m in ms) == (set m | m in ms[1..]) + {ms[0]};
    }
  }

  /** A subset has at most as many elements as its superset. */
  lemma {:induction false} SubsetBound(a: set<PactMethod>, b: set<PactMethod>)
    requires a <= b
    ensures |a| <= |b|
    decreases |a|
  {
    if a != {} {
      var x :| x in a;
      SubsetBound(a - {x}, b - {x});
    }
  }

  /** When only declared methods were ever executed, the coverage check fails exactly when some
      declared method that is not disabled never ran, and its message lists exactly those
      methods, qualified by their declaring class, in declaration order. The count guard of the
      source never hides such a method. */
  lemma CoverageFailsExactlyWhenUncovered(methods: seq<PactMethod>, executed: set<PactMethod>)
    requires executed <= set m | m in methods
    ensures CoverageCheck(methods, executed).Err? <==> SomeUncovered(methods, executed)
    ensures CoverageCheck(methods, executed).Err? ==>
              CoverageCheck(methods, executed).error
                == UnexecutedPactMethods(JoinNames(Uncovered(methods, executed)))
  {
    if SomeUncovered(methods, executed) {
      var i :| 0 <= i < |methods| && methods[i] !in executed && !methods[i].disabled;
      var declared := set m | m in methods;
      assert executed <= declared - {methods[i]};
      DistinctElementsBound(methods);
      SubsetBound(executed, declared - {methods[i]});
      assert methods[i] in Uncovered(methods, executed);
    }
  }

  lemma CoverageWhenDeclared(cls: TestClass, s: Store)
    ensures ExecutedDeclared(cls, s) ==>
              (CoverageCheck(cls.pactMethods, s.executed).Err? <==>
                 SomeUncovered(cls.pactMethods, s.executed))
  {
    if ExecutedDeclared(cls, s) {
      CoverageFailsExactlyWhenUncovered(cls.pactMethods, s.executed);
    }
  }

  /** `afterAll`: nothing happens when the class raised; otherwise every aggregated pact is
      written to the pact directory, and only then is coverage checked. */
  function AfterAll(env: Collaborators, cls: TestClass, s: Store, raised: bool,
                    order: seq<PactKey>, buildToolDefault: string): (st: Step<()>)
    requires Enumerates(order, s.pactsToWrite)
    ensures raised ==> st == Step(s, Ok(()))
    ensures st.store == s.(log := st.store.log)
    ensures !raised && (forall k :: k in s.pactsToWrite ==>
                          env.writes(s.pactsToWrite[k].pact, LookupPactDirectory(cls, buildToolDefault),
                                     s.pactsToWrite[k].version)) ==>
              && st.store.log == s.log + WriteEvents(s.pactsToWrite,
                                                     LookupPactDirectory(cls, buildToolDefault), order)
              && (ExecutedDeclared(cls, s) ==>
                    (st.result.Err? <==> SomeUncovered(cls.pactMethods, s.executed)))
    ensures !raised && st.result.Err? && st.result.error.WriteFailed? ==>
              st.result.error.entry in s.pactsToWrite
    ensures !raised && (forall k :: k in s.pactsToWrite ==>
                          env.writes(s.pactsToWrite[k].pact, LookupPactDirectory(cls, buildToolDefault),
                                     s.pactsToWrite[k].version)) ==>
              st.result == CoverageCheck(cls.pactMethods, s.executed)
    ensures !raised && (exists k :: k in s.pactsToWrite
                          && !env.writes(s.pactsToWrite[k].pact, LookupPactDirectory(cls, buildToolDefault),
                                         s.pactsToWrite[k].version)) ==>
              st.result.Err? && st.result.error.WriteFailed?
  {
    if raised then Step(s, Ok(()))
    else
      var dir := LookupPactDirectory(cls, buildToolDefault);
      var written := WriteAll(env, s, dir, order);
      if written.result.Err? then
        WriteAllFailure(env, s, dir, order);
        written
      else
        WriteAllLog(env, s, dir, order);
        CoverageWhenDeclared(cls, s);
        Step(written.store, CoverageCheck(cls.pactMethods, s.executed))
  }
}

=== FILE: types.dfy ===
/** The data the Pact consumer JUnit 5 extension works on: provider configurations, the
    `@PactTestFor` annotation, the `@Pact` method registry of a test class, pacts, mock server
    handles, and the extension store that the lifecycle hooks read and write. */
module PactTypes {
  import opened Wrappers

  /** `ProviderType`: how the provider is exercised. */
  datatype ProviderType = Synch | Asynch | Unspecified

  /** `PactSpecVersion`, ordered by declaration as a Kotlin enum is. */
  datatype PactSpecVersion = UnspecifiedVersion | V1 | V1_1 | V2 | V3 | V4 {
    function Ordinal(): nat {
      match this
      case UnspecifiedVersion => 0
      case V1 => 1
      case V1_1 => 2
      case V2 => 3
      case V3 => 4
      case V4 => 5
    }
  }

  /** `maxOf(a, b)` on enum values: `a` when `a >= b`, otherwise `b`. */
  function MaxVersion(a: PactSpecVersion, b: PactSpecVersion): (r: PactSpecVersion)
    ensures r.Ordinal() >= a.Ordinal() && r.Ordinal() >= b.Ordinal()
    ensures r == a || r == b
  {
    if a.Ordinal() >= b.Ordinal() then a else b
  }

  /** The mock-server part of a `ProviderInfo` (host interface, port, https). It is only read by
      `mockServerConfig`, which is a collaborator. */
  datatype EndpointSettings = EndpointSettings(hostInterface: string, port: string, https: bool)

  /** `ProviderInfo`; a null `providerType` or `pactVersion` is `None`. */
  datatype ProviderInfo = ProviderInfo(
    providerName: string,
    providerType: Option<ProviderType>,
    pactVersion: Option<PactSpecVersion>,
    endpoint: EndpointSettings)

  /** `ProviderInfo()`: every field at its default. */
  const DefaultProviderInfo := ProviderInfo("", None, None, EndpointSettings("", "", false))

  /** A resolved provider together with the `@Pact` method name chosen for it
      (`Pair<ProviderInfo, String>`; the name may be empty). */
  datatype Target = Target(info: ProviderInfo, pactMethod: string)

  /** A `@PactTestFor` annotation. `pactMethod` and `pactMethods` drive resolution; the remaining
      attributes are only read by `ProviderInfo.fromAnnotation`, a collaborator, and are kept
      as name/value pairs. */
  datatype PactTestFor = PactTestFor(
    pactMethod: string,
    pactMethods: seq<string>,
    attributes: seq<(string, string)>)

  /** One method of the test class annotated with `@Pact`: its name, the simple name of the class
      declaring it, its parameter types (which, with the name and the class, identify a Java
      method, so overloads stay distinct), the raw `provider` and `consumer` attributes, and
      whether it carries `@Disabled`. */
  datatype PactMethod = PactMethod(
    name: string,
    declaringClass: string,
    parameterTypes: seq<string>,
    provider: string,
    consumer: string,
    disabled: bool)

  /** The test class as the hooks see it: its names, its `@PactTestFor`, its `@Pact` methods in
      top-down hierarchy order, and the values of `@PactFolder` and `@PactDirectory`. */
  datatype TestClass = TestClass(
    qualifiedName: string,
    simpleName: string,
    annotation: Option<PactTestFor>,
    pactMethods: seq<PactMethod>,
    pactFolder: Option<string>,
    pactDirectory: Option<string>)

  /** The running test method: its `@PactTestFor` and its display name. */
  datatype TestMethod = TestMethod(annotation: Option<PactTestFor>, displayName: string)

  /** The extension context of one test method. */
  datatype Context = Context(cls: TestClass, test: TestMethod)

  /** One interaction of a pact; `testName` is the `testname` comment set for V4 pacts. */
  datatype Interaction = Interaction(description: string, testName: Option<string>)

  /** A built pact: its identity (consumer and provider names) and its interactions. */
  datatype Pact = Pact(consumer: string, provider: string, interactions: seq<Interaction>)

  /** The three typed views of a pact (`asRequestResponsePact`, `asMessagePact`, `asV4Pact`). */
  datatype PactForm = RequestResponseForm | MessageForm | V4Form

  /** The builder handed to a `@Pact` method: a `ConsumerPactBuilder` (whose spec version is
      only set when the provider names one) or a `MessagePactBuilder`. */
  datatype Builder =
    | RequestResponseBuilder(consumer: string, provider: string, version: Option<PactSpecVersion>)
    | MessageBuilder(consumer: string, provider: string, messageVersion: PactSpecVersion)

  /** The configuration `mockServerConfig()` derives from a provider. */
  datatype MockServerConfig = MockServerConfig(settings: seq<(string, string)>)

  /** A mock server handle, identified by the pact it serves and its configuration. */
  datatype MockServer = MockServer(pact: Pact, config: MockServerConfig)

  /** What `validateMockServerState` reports. */
  datatype Verification = VerificationOk | Mismatch(details: string)

  /** Aggregation key: the pact's `(consumer, provider)` identity. */
  datatype PactKey = PactKey(consumer: string, provider: string)

  /** A `pactsToWrite` entry. */
  datatype Aggregate = Aggregate(pact: Pact, version: PactSpecVersion)

  /** Observable side effects, in the order they happen. */
  datatype Event =
    | ServerStarted(provider: string)
    | ServerReady(provider: string)
    | ServerClosed(provider: string)
    | ServerValidated(provider: string, ok: bool)
    | PactWritten(key: PactKey, directory: string, version: PactSpecVersion)
    | ScopeClosed(servers: set<string>)

  /** The exceptions the extension raises. */
  datatype PactError =
    | PactMethodNotFound(methodName: string)          // `method!!` in providerNameFromPactMethod
    | NoPactMethod(testClass: string, provider: string)
    | SignatureMismatch(methodName: string, expected: PactForm)
    | MissingStoreEntry(key: string)                  // a null store value cast to a non-null type
    | StartupFailed(provider: string)
    | ValidationFailed(provider: string, details: string)
    | ProviderNotFound(provider: string, index: nat)
    | AmbiguousProvider(index: nat)
    | CannotInject(index: nat)
    | InvocationFailed(methodName: string)            // the `@Pact` method threw or built no pact
    | ConversionFailed(form: PactForm)
    | WriteFailed(entry: PactKey)
    | UnexecutedPactMethods(listing: string)

  /** The extension store. `providers`, `pacts` ("pact:<name>"), `mockServerConfigs`
      ("mockServerConfig:<name>") and `mockServers` ("mockServer:<name>") belong to the test
      method's store; `executed` ("executedFragments") and `pactsToWrite` to the class store.
      `log` records side effects. */
  datatype Store = Store(
    providers: Option<seq<Target>>,
    pacts: map<string, Pact>,
    mockServerConfigs: map<string, MockServerConfig>,
    mockServers: map<string, MockServer>,
    executed: set<PactMethod>,
    pactsToWrite: map<PactKey, Aggregate>,
    log: seq<Event>)

  /** The result of a hook: the store as it stands afterwards (including changes made before
      an exception) and the value returned or the exception raised. */
  datatype Step<+T> = Step(store: Store, result: Result<T, PactError>)

  /** The code this extension calls but does not define, each as an uninterpreted function. */
  datatype Collaborators = Collaborators(
    fromAnnotation: PactTestFor -> ProviderInfo,               // ProviderInfo.fromAnnotation
    mergeInfo: (ProviderInfo, ProviderInfo) -> ProviderInfo,   // ProviderInfo.merge
    parse: string -> Option<string>,                           // parseExpression(..)?.toString()
    conformsToSignature: (PactMethod, PactSpecVersion) -> bool,
    conformsToMessageSignature: (PactMethod, PactSpecVersion) -> bool,
    invoke: (PactMethod, Builder) -> Option<Pact>,             // invokeMethod(..) as BasePact; None if it throws
    mockServerConfig: ProviderInfo -> MockServerConfig,
    comesUp: MockServer -> bool,                               // start() and waitForServer() succeed
    mergeInteractions: (Pact, seq<Interaction>) -> Pact,       // BasePact.mergeInteractions
    viewAs: (Pact, PactForm) -> Option<Pact>,                  // asXxxPact() that unwrap() accepts
    writes: (Pact, string, PactSpecVersion) -> bool)           // pact.write succeeds

  /** `ifEmpty`: the string, or the fallback when it is empty. */
  function IfEmpty(s: string, fallback: string): string {
    if s == "" then fallback else s
  }

  /** The provider type `lookupPact` acts on (`providerType ?: SYNCH`). */
  function EffectiveType(info: ProviderInfo): ProviderType {
    info.providerType.GetOr(Synch)
  }

  /** The spec version used where the source writes `pactVersion ?: V3`. */
  function EffectiveVersion(info: ProviderInfo): PactSpecVersion {
    info.pactVersion.GetOr(V3)
  }

  /** The store `beforeAll` creates: empty executed set and empty aggregation map. */
  const InitialStore := Store(None, map[], map[], map[], {}, map[], [])

  /** The `@Pact` methods declared on a test class, as a set. */
  function Declared(cls: TestClass): set<PactMethod> {
    set m | m in cls.pactMethods
  }

  /** The registry membership invariant: only declared `@Pact` methods are ever recorded. */
  ghost predicate ExecutedDeclared(cls: TestClass, s: Store) {
    s.executed <= Declared(cls)
  }

  /** Every stored mock server has a stored pact under the same provider name. */
  ghost predicate ServersHavePacts(s: Store) {
    s.mockServers.Keys <= s.pacts.Keys
  }
}

=== FILE: wrappers.dfy ===
/** Optional values and success-or-error results, the two shapes that stand in for
    Kotlin's nullable references and thrown exceptions throughout the model. */
module Wrappers {

  /** A Kotlin `T?`: either absent (`null`) or present. */
  datatype Option<+T> = None | Some(value: T) {

    /** The Elvis operator `x ?: fallback`. */
    function GetOr(fallback: T): T {
      match this
      case Some(v) => v
      case None => fallback
    }
  }

  /** The outcome of a call that may throw: a value, or the exception it raised. */
  datatype Result<+T, +E> = Ok(value: T) | Err(error: E)
}
